=== FILE: README.md ===
# start_voice_services: the transcription endpoint, in Dafny

This project models the core of `asr_openai_api.py`, an OpenAI-compatible
`/v1/audio/transcriptions` endpoint that passes uploaded audio to a sherpa
recognition backend over a WebSocket. The model covers four parts:

- **Normalizer.** The upload's suffix decides between copying the upload
  and running `ffmpeg` with a fixed command line that asks for 16 kHz,
  mono, 16-bit output.
- **Decoder.** `read_wave` decodes native-order int16 PCM (modelled for
  a little-endian host), scales each
  sample by 1/32768 and averages interleaved channels into one.
- **Streamer.** `send_to_sherpa` builds one frame (sample rate and byte
  length as little-endian 32-bit fields, then the float32 samples in the
  host's native order), sends it in pieces of at
  most 10240 bytes, waits for one reply and then sends `"Done"`.
- **Shaper.** The reply is stripped and wrapped in the compact `{text}`
  body or the `verbose_json` body. The model also covers the handler's
  error and `finally` cleanup flow.

Modules, one per component:

| module | what it holds |
|---|---|
| `Results` | `Result` and `Option` |
| `Arith` | small nonlinear-arithmetic facts the other proofs use |
| `Text` | Python's `str.strip` (with the full `str.isspace` table), ASCII `lower`, decimal rendering of integers |
| `WireFrame` | bytes, little-endian 32-bit fields, the frame encoder and its decoder |
| `Chunking` | the 10240-byte split and the loop that sends it |
| `SherpaSession` | the WebSocket session as a trace of events against a peer oracle |
| `Pcm` | int16 decoding, scaling, downmixing, `read_wave` |
| `Paths` | `os.path.splitext`, the suffix choice |
| `Ffmpeg` | the converter's command line and a parser that reads it back |
| `Envelope` | the compact and verbose response bodies |
| `Transcribe` | the handler: prechecks, scratch files, copy or convert, decode, session, response, cleanup |

Things outside the program are parameters (oracles) on the `Host` record:

- whether `ffmpeg` is installed;
- the scratch-file names;
- what the converter writes;
- what `wave.open` reports for given bytes;
- the float32 encoding of a sample;
- how the backend peer behaves;
- which unlinks fail.

The peer oracle decides four things: whether the connection opens, how many
binary sends it accepts, whether it replies, and whether it accepts `"Done"`.

Facts about the code that the model keeps:

- A failure to send `"Done"` is not caught. The exception leaves
  `send_to_sherpa` inside the handler's `try`, the request fails with 500
  and the transcript is lost.
- The unsupported-width message names the byte width from the WAV header.
  An 8-bit file yields "不支持的采样宽度: 1", not "8".
- Copy or convert is decided by the filename suffix alone. Any `.wav`
  upload is copied unchanged, whatever its channels, rate or width; only
  the decoder's width check and downmix apply to it.
- A failed conversion reports the fixed detail "音频格式转换失败". The
  converter's diagnostic output is logged, not reported.
- The handler raises its own 400s inside the `try`, and `except Exception`
  re-raises every exception as a 500, so all errors reach the caller as
  500. `Transcribe.HandleAsWritten` models that. `Transcribe.Handle`, which
  the rest of the model uses, lets those HTTPExceptions through (see
  Findings).
- `ffmpeg` must be installed even for `.wav` uploads that never use it.
- A verbose request whose WAV header declares rate 0 fails with Python's
  `ZeroDivisionError` ("division by zero"). A compact request does not
  divide, so it succeeds.
- Frame fields that do not fit in 32 bits raise `OverflowError` ("int too
  big to convert"). This happens after the connection is open, so the trace
  shows a connect and a close.

## Model

| member | source | states |
|---|---|---|
| `WireFrame.LE32` | asr_openai_api.py:108-109 | a value below 2^32 becomes four bytes that read back, least significant first, as that value |
| `WireFrame.LE32OfRead` | asr_openai_api.py:108-109 | every four bytes are the encoding of the value they read as, so the 32-bit field encoding is a bijection |
| `WireFrame.Flatten` | asr_openai_api.py:110 | `samples.tobytes()`: the buffer is four bytes per sample, and byte 4i+k is byte k of sample i |
| `WireFrame.UnflattenFlatten` | asr_openai_api.py:110 | the sample bytes can be cut back into the original sequence of words |
| `WireFrame.EncodeFrame` | asr_openai_api.py:108-110 | the frame encodes exactly when the rate and the byte count 4·N are below 2^32; it is then 8+4N bytes long, otherwise it fails with the overflow message |
| `WireFrame.FrameRoundTrip` | asr_openai_api.py:107-110 | decoding an encoded frame gives back the same rate and samples |
| `WireFrame.FrameRoundTripBytes` | asr_openai_api.py:107-110 | every decodable byte string is exactly the encoding of what it decodes to |
| `WireFrame.FrameHeader` | asr_openai_api.py:108-109 | the first four bytes carry the sample rate and the next four carry 4 × the sample count, both little-endian |
| `Chunking.Split` | asr_openai_api.py:115-120 | a buffer yields no pieces exactly when it is empty, and the first piece holds min(length, size) bytes |
| `Chunking.SendChunks` | asr_openai_api.py:115-120 | the while loop and the trailing send produce exactly the canonical split of the frame into 10240-byte pieces |
| `Chunking.SplitReassembles` | asr_openai_api.py:115-120 | concatenating the pieces gives back the frame, for any piece size |
| `Chunking.SplitWellSized` | asr_openai_api.py:115-120 | every piece is non-empty and at most the piece size, and every piece but the last is exactly the piece size |
| `Chunking.SplitCount` | asr_openai_api.py:115-120 | the number of sends is the ceiling of length / 10240, so an empty buffer sends nothing |
| `Chunking.SplitUnique` | asr_openai_api.py:115-120 | any well-sized list of pieces that reassembles to the frame is the split: the layout is fully determined |
| `Chunking.ConcatPrefix` | asr_openai_api.py:115-120 | the bytes of the first k pieces followed by the bytes of the rest are the whole frame, so a session cut short has sent a prefix |
| `Chunking.ExactlyOneChunk` | asr_openai_api.py:116-120 | a buffer of exactly 10240 bytes goes out in one send, because the loop's test is strict |
| `Chunking.NonEmptyHasChunk` | asr_openai_api.py:116-120 | a non-empty buffer is sent, and its first piece is its first min(length, size) bytes |
| `SherpaSession.SessionCourse` | asr_openai_api.py:106-124 | on an open connection, a frame that does not encode sends nothing and ends with the encoder's message; otherwise the pieces sent are a prefix of the split frame, the session finishes exactly when the whole frame, the reply and "Done" all go through, and any reply it ends with is the peer's |
| `SherpaSession.Run` | asr_openai_api.py:102-131 | the session returns a transcript exactly when the peer is reachable, the frame encodes, every piece is accepted, a reply arrives and "Done" is accepted; the transcript is then the peer's reply; an unreachable peer leaves no trace; a failure carries the encoder's message or the network exception's |
| `SherpaSession.SessionOrder` | asr_openai_api.py:116-124 | in every session all binary sends come before the receive, "Done" comes only right after the receive, the trace is bracketed by connect and close, and at most one message is received and at most one "Done" sent |
| `SherpaSession.SessionPayload` | asr_openai_api.py:115-127 | the binary messages are always the leading pieces of the frame's 10240-byte split, one message per piece, so the bytes the peer receives are a prefix of the encoded frame; a successful session sent every piece, delivered the whole frame, received exactly one message, which is the returned reply, and sent "Done" exactly once |
| `SherpaSession.OpenedCounts` | asr_openai_api.py:116-124 | the payload of an opened session is the concatenation of the accepted pieces; it sends text only when it finished, and it received one message, the reply its ending names, exactly when it got that far |
| `SherpaSession.OpenedOrder` | asr_openai_api.py:116-124 | every opened session keeps the send, receive, "Done" order inside connect and close |
| `SherpaSession.PayloadSends` | asr_openai_api.py:117-120 | sending a list of pieces delivers their concatenation and no text |
| `Pcm.Int16` | asr_openai_api.py:86 | two bytes read as a little-endian two's-complement int16: the result is in range and agrees with the unsigned reading modulo 2^16 |
| `Pcm.Int16Bytes` | asr_openai_api.py:86 | every int16 value has a two-byte encoding that reads back as that value |
| `Pcm.Int16s` | asr_openai_api.py:86 | `np.frombuffer(..., int16)` on an even-length buffer gives one in-range sample per two bytes |
| `Pcm.Int16sRoundTrip` | asr_openai_api.py:86 | reading back the bytes of any sequence of int16 values returns that sequence |
| `Pcm.Scale` | asr_openai_api.py:86 | dividing by 32768 maps every int16 into [-1, 1), loses nothing (x·32768 is the sample), and gives -1 only for -32768 |
| `Pcm.ScaleExtremes` | asr_openai_api.py:86 | -32768 scales to exactly -1.0, 32767 to 32767/32768, and 0 to 0.0 |
| `Pcm.ScaleAll` | asr_openai_api.py:86 | the scaled buffer has one value per sample, and each value times 32768 is that sample |
| `Pcm.Mean` | asr_openai_api.py:93 | the mean times the number of values is their sum |
| `Pcm.MeanBounds` | asr_openai_api.py:93 | the mean of values in [-1, 1) stays in [-1, 1) |
| `Pcm.Downmix` | asr_openai_api.py:91-93 | reshaping to rows of `channels` and averaging yields one value per frame |
| `Pcm.DownmixAt` | asr_openai_api.py:91-93 | output i is the mean of the interleaved samples i·c to (i+1)·c-1, i.e. of frame i's channels |
| `Pcm.DownmixMono` | asr_openai_api.py:91-93 | averaging rows of one channel changes nothing |
| `Pcm.DownmixBounds` | asr_openai_api.py:91-93 | downmixing keeps every sample in [-1, 1) |
| `Pcm.DownmixStereoExample` | asr_openai_api.py:91-93 | the stereo frames (1, -1) and (0.5, 0.5) become 0 and 0.5 |
| `Pcm.ReadWave` | asr_openai_api.py:82-95 | a width other than 2 bytes is rejected by name; otherwise decoding succeeds exactly when the frames split into whole samples and, for several channels, into whole rows; the rate passes through, samples are in [-1, 1), and there is one sample per frame |
| `Pcm.ReadWaveMono` | asr_openai_api.py:85-95 | for at most one channel, sample i is the int16 at bytes 2i and 2i+1 divided by 32768 |
| `Pcm.ScaledSum` | asr_openai_api.py:86 | the scaled values of `count` consecutive samples sum to the sum of their int16s over 32768 |
| `Pcm.DownmixFrames` | asr_openai_api.py:86-93 | each downmixed sample i, times the channel count c and 32768, is the sum of the int16s stored as samples i·c to i·c+c-1 |
| `Pcm.ReadWaveMultiChannel` | asr_openai_api.py:86-95 | for c > 1 channels, sample i times c times 32768 is the sum of the int16s of frame i's c channels, read from bytes 2·(i·c) to 2·(i·c+c)-1 |
| `Pcm.ReadWaveFrameCount` | asr_openai_api.py:78-95 | a 16-bit file whose byte count matches its frame count decodes to exactly that many samples |
| `Pcm.ErrorMessage` | asr_openai_api.py:88 | only the width error's text starts with "不支持的采样宽度: ", and the rest of that text is decimal digits that parse back to the width |
| `Pcm.EightBitRejected` | asr_openai_api.py:85-88 | an 8-bit file is refused with the message "不支持的采样宽度: 1" |
| `Text.IsSpace` | asr_openai_api.py:219 | the whitespace `str.strip` removes: tab, newline, carriage return and space are whitespace, no ASCII letter or digit is, and every ASCII whitespace character is a control character or space |
| `Text.Strip` | asr_openai_api.py:219 | the result is a contiguous slice of the reply obtained by removing only whitespace at both ends, and it neither starts nor ends with whitespace |
| `Text.StripUnique` | asr_openai_api.py:219 | any slice with those two properties is the stripped reply, so `strip` is fully pinned down |
| `Text.StripIdempotent` | asr_openai_api.py:219 | stripping a stripped text changes nothing |
| `Text.TrimStart` | asr_openai_api.py:219 | leading-whitespace removal keeps a suffix that does not start with whitespace |
| `Text.TrimEnd` | asr_openai_api.py:219 | trailing-whitespace removal keeps a prefix that does not end with whitespace |
| `Text.Lower` | asr_openai_api.py:184 | lower-casing maps each character in place and keeps the length |
| `Text.LowerIdempotent` | asr_openai_api.py:184 | lower-casing twice is lower-casing once, and no upper-case ASCII letter survives |
| `Text.Decimal` | asr_openai_api.py:88 | an integer renders as non-empty digits with no leading zero |
| `Text.DecimalRoundTrip` | asr_openai_api.py:88 | parsing the rendering of n gives back n |
| `Text.DecimalInjective` | asr_openai_api.py:88 | two widths with the same rendering are equal, so the message identifies the width |
| `Paths.LastIndex` | asr_openai_api.py:184 | the last position of a character, or -1 when it does not occur |
| `Paths.SplitExt` | asr_openai_api.py:184 | `os.path.splitext` cuts the path into two parts that concatenate back to it |
| `Paths.SplitExtSound` | asr_openai_api.py:184 | a non-empty extension starts at the last dot of the last path component, and that component has a non-dot character before that dot |
| `Paths.SplitExtComplete` | asr_openai_api.py:184 | every such decomposition is the one `splitext` returns |
| `Paths.DotFileHasNoExtension` | asr_openai_api.py:184-186 | a name like ".wav" has no extension, so it gets the default suffix and is converted |
| `Paths.LastDotWins` | asr_openai_api.py:184 | "clip.tar.WAV" splits at its last dot |
| `Paths.FileSuffix` | asr_openai_api.py:184-186 | the suffix is the lower-cased extension, or ".webm" when there is none; it is always a dot-led, lower-case suffix |
| `Paths.WavIsCaseInsensitive` | asr_openai_api.py:184-200 | the upload counts as WAV exactly when its extension lower-cases to ".wav" |
| `Paths.UpperCaseWav` | asr_openai_api.py:184-200 | "REC.WAV" is treated as WAV |
| `Paths.NoExtensionDefaultsToWebm` | asr_openai_api.py:185-186 | "recording" is treated as WebM |
| `Ffmpeg.Argv` | asr_openai_api.py:42-49 | the command line has eleven words and runs `ffmpeg` |
| `Ffmpeg.Parse` | asr_openai_api.py:42-49 | a parsed command line starts with `ffmpeg` and ends with the output path |
| `Ffmpeg.ArgvRequestsCanonicalPcm` | asr_openai_api.py:42-49 | the command line reads the input file with its own settings and writes the output file at 16000 Hz, 1 channel, s16 samples, with overwrite |
| `Ffmpeg.MisplacedRateAppliesToInput` | asr_openai_api.py:42-49 | position matters: moving `-ar 16000` before `-i` sets the input's rate instead of the output's, a different job from the one the handler asks for |
| `Ffmpeg.ArgvInjective` | asr_openai_api.py:42-49 | different file pairs give different command lines |
| `Envelope.LanguageOrAuto` | asr_openai_api.py:226 | a non-empty language hint is echoed; a missing or empty one becomes "auto" |
| `Envelope.TemperatureOrZero` | asr_openai_api.py:236 | the temperature hint is echoed, or 0.0 when absent |
| `Envelope.VerboseBody` | asr_openai_api.py:224-242 | the verbose body has task "transcribe", the echoed language, duration = samples / rate, and exactly one placeholder segment from 0 to that duration carrying the text and temperature |
| `Envelope.Shape` | asr_openai_api.py:218-242 | shaping fails exactly for verbose_json at rate 0, with "division by zero"; otherwise the text is the stripped reply, and the body is verbose exactly when the format is verbose_json |
| `Envelope.VerboseFields` | asr_openai_api.py:223-242 | at a positive rate, verbose_json yields the verbose body described above |
| `Envelope.TwoSecondsExample` | asr_openai_api.py:227-233 | 32000 samples at 16000 Hz report a duration and segment end of 2.0 |
| `Envelope.OtherFormatsAreCompact` | asr_openai_api.py:223 | "json", an absent format and the wrong-case "VERBOSE_JSON" all give the compact body |
| `Transcribe.HttpStatus` | asr_openai_api.py:169-203 | the handler's own HTTPExceptions are 400 exactly for a missing filename and an empty upload, and 500 otherwise |
| `Transcribe.HttpDetail` | asr_openai_api.py:169-203 | each of the handler's own HTTPExceptions carries a non-empty detail |
| `Transcribe.HttpDetailInjective` | asr_openai_api.py:169-203 | the four details are distinct, so the detail alone identifies the failure |
| `Transcribe.Describe` | asr_openai_api.py:170-260 | the text `str(e)` gives for each failure: a raised exception's own message, and for the handler's own HTTPExceptions three digits that parse back to the status, ": ", then the detail |
| `Transcribe.Precheck` | asr_openai_api.py:168-181 | no file is created unless the filename is set, ffmpeg is present and the upload is non-empty; the first failing check, in that order, is the one reported |
| `Transcribe.EncodeSamples` | asr_openai_api.py:110 | one float32 word per sample, in order |
| `Transcribe.StageWav` | asr_openai_api.py:199-206 | the converter runs, on the two scratch paths, exactly when the suffix is not ".wav"; otherwise the WAV scratch file holds the upload's bytes |
| `Transcribe.Recognize` | asr_openai_api.py:210-242 | a transcript implies the WAV bytes opened and decoded and the backend replied, and the body is that reply shaped for the decoded audio's sample count and rate |
| `Transcribe.Process` | asr_openai_api.py:199-215 | a failed conversion stops the request before decoding and before any backend traffic |
| `Transcribe.Cleanup` | asr_openai_api.py:262-270 | every set, existing path is either removed or left over; removed paths are those whose unlink succeeded and left-over ones those whose unlink failed |
| `Transcribe.Attempt` | asr_openai_api.py:156-215 | a failed precheck is reported as is and creates no file; otherwise both scratch files are created, and the failure is either the conversion or a raised exception |
| `Transcribe.RespondAsWritten` | asr_openai_api.py:256-260 | as written, a result becomes a transcript, or a 500 whose detail is "转录失败: " followed by `str(e)`, whatever the exception |
| `Transcribe.HandleAsWritten` | asr_openai_api.py:156-270 | as written, every error reply is a 500 with the "转录失败: " prefix; a failed precheck creates no file, runs no converter, opens no session and reports that check; otherwise the two scratch files are created |
| `Transcribe.ClientErrorReportedAs500` | asr_openai_api.py:169-170 | as written, a missing filename yields 500 with detail "转录失败: 400: 未提供文件名" |
| `Transcribe.Respond` | asr_openai_api.py:169-203 | the handler's own HTTPExceptions keep their status and detail; any other exception becomes a 500 whose detail is "转录失败: " followed by its text |
| `Transcribe.Handle` | asr_openai_api.py:156-270 | the request is answered 400 exactly for a missing filename or an empty upload; every other error is a 500; each of the handler's own HTTPExceptions (a failed precheck or a failed conversion) is answered with its own status and detail; every other exception gets the as-written answer, 500 "转录失败: " and its message; transcripts and all side effects (files, converter call, session, cleanup) match the handler as written |
| `Transcribe.ClientErrorReportedAs400` | asr_openai_api.py:169-170 | a missing filename yields 400 with detail "未提供文件名" |
| `Transcribe.ScratchSuffix` | asr_openai_api.py:184-189 | the upload's scratch file gets a dot-led suffix |
| `Transcribe.HandleCleansUp` | asr_openai_api.py:262-270 | `finally` removes every created scratch file whose unlink succeeds and leaves exactly those whose unlink fails |
| `Transcribe.CleanupFailureKeepsOutcome` | asr_openai_api.py:262-270 | a failing unlink changes neither the response, nor the converter call, nor the backend session; the as-written handler's response does not change either |
| `Transcribe.ConvertUnlessWav` | asr_openai_api.py:189-206 | after the prechecks, the converter runs on the two scratch files exactly when the suffix is not ".wav"; otherwise the upload's bytes are decoded unchanged |
| `Transcribe.ConversionFailureCleansBoth` | asr_openai_api.py:199-270 | a failed conversion reads no WAV, contacts no backend, and deletes both scratch files; the corrected handler answers 500 "音频格式转换失败", while the handler as written answers 500 "转录失败: 500: 音频格式转换失败", a different response |
| `Transcribe.ConversionFailureResponses` | asr_openai_api.py:202-260 | the conversion failure's HTTPException is answered 500 "音频格式转换失败" when let through, and 500 "转录失败: 500: 音频格式转换失败" when re-raised by `except Exception` |
| `Transcribe.CleanupRemovesBoth` | asr_openai_api.py:264-268 | with no failing unlink, both distinct scratch files are removed in order |
| `Transcribe.ScratchPathsDistinct` | asr_openai_api.py:189-196 | when the suffix is not ".wav", the upload's scratch path differs from the WAV scratch path |
| `Transcribe.UnsupportedWidthDetail` | asr_openai_api.py:85-88 | a WAV upload with width other than 2 fails with a 500 whose detail names that width, the same answer as the handler as written gives, and never contacts the backend |
| `Transcribe.SuccessDeliveredFrame` | asr_openai_api.py:210-219 | a transcript means the WAV decoded, the backend received the frame built from its samples as exactly the pieces of its 10240-byte split, exactly one message was received, the session's reply, and then "Done" was sent exactly once, in order |
| `Transcribe.SuccessTranscript` | asr_openai_api.py:210-242 | a transcript is the backend's reply shaped for the decoded audio, so its text is the reply with surrounding whitespace stripped |

## Left out

- Running `ffmpeg` and `shutil.which` are left out. They are oracles on the host (what the converter writes, whether it is installed), because they are processes and the file system. `shutil.copy2` is modelled as an exact byte copy that always succeeds: for a ".wav" upload the WAV scratch file holds the upload's bytes; a failing copy is not modelled.
- Parsing the WAV container (`wave.open`, `getnframes`, `readframes`) is left out. It is an oracle from bytes to a header-plus-frames record or an error message, because the container format is Python's standard library, not this program.
- The WebSocket transport, `asyncio` and the connection URI are left out. The peer is an oracle that decides whether the connection opens, how many binary sends succeed, whether a reply arrives, and whether "Done" is accepted. The code sets no timeout, so none is modelled. Text replies only: a binary reply from `recv` is not modelled.
- float32 conversion and IEEE-754 bytes are left out. Sample amplitudes are exact reals, and the four bytes of each sample come from an encoder oracle. So `astype(np.float32)` rounding and the float `/` in the duration are not modelled.
- Temporary-file creation is left out: the scratch names are host parameters, and failures of `NamedTemporaryFile`, `mkstemp` and `file.read` are not modelled.
- Request cancellation and `BaseException`s that bypass `except Exception` are left out. They are concurrency concerns outside the handler's logic.
- Logging, CORS headers, the OPTIONS route, `/health`, `/v1/models`, the uvicorn entry point and `voice_web.py` are left out. They are outside the transcription core.
- `Text.Lower`: maps ASCII letters only. Python's `str.lower` is full Unicode case mapping. The ".wav" decision is unaffected, because no non-ASCII character lower-cases to '.', 'w', 'a' or 'v'.
- `Pcm.ErrorMessage`: the width message is exact. The two numpy reshaping and buffer-size messages are paraphrased, because numpy's wording is not part of this program.
- `Ffmpeg.Argv`: its own contract states only the length and program name. What the argument list asks for is stated by `Ffmpeg.ArgvRequestsCanonicalPcm` through `Ffmpeg.Parse`, which knows only the options this command line uses, one input file, and that settings before `-i` apply to the input and settings after it to the output; the rest of ffmpeg's option grammar is not modelled.
- `Envelope.TemperatureOrZero`: the temperature is a finite real. A NaN or infinite temperature, which `JSONResponse` refuses to render (`allow_nan=False` raises `ValueError`, and the request fails with 500), is not modelled; nor is any other JSON rendering failure.
- `Transcribe.Recognize`: its contract states only what success implies. At the handler level, success is detailed by `Transcribe.SuccessDeliveredFrame` (what went over the wire) and `Transcribe.SuccessTranscript` (the body). The message of each raised failure is stated by the stage that raises it (`Pcm.ErrorMessage`, `SherpaSession.Run`, `Envelope.Shape`); `Transcribe.Handle` states that every raised failure is answered 500 with "转录失败: " and its message, and only the width error's message is carried up to the handler's answer, by `Transcribe.UnsupportedWidthDetail`.
- `Paths.SplitExt`: models `posixpath.splitext`, with '/' as the only separator. On Windows, `ntpath.splitext` treats both `\` and `/` as separators, so a name like `a.b\c` splits differently there; that flavour is not modelled.
- `Pcm.Int16s`: `np.frombuffer(..., dtype=np.int16)` reads the host's native byte order, and WAV data is little-endian; the model assumes a little-endian host, so big-endian hosts (where the samples come out byte-swapped) are not modelled. The same holds for `samples.tobytes()` when the frame is built: the four bytes of each float32 come from the encoder oracle, which stands for the host's native (here little-endian) layout.

## Findings

| source | as written | input that shows it | evidently intended | confidence | as-written member | corrected member |
|---|---|---|---|---|---|---|
| asr_openai_api.py:169-181, 256-260 | The handler raises its HTTPException(400)s inside the `try`. `except Exception` catches them and re-raises them as 500 with detail "转录失败: 400: …". | An upload with an empty filename is answered 500 "转录失败: 400: 未提供文件名". | Client errors (missing filename, empty upload) reach the caller as 400 with their own detail. | not executed | `Transcribe.ClientErrorReportedAs500` | `Transcribe.Handle` |

=== FILE: arith.dfy ===
/** Facts about multiplication and division by a positive number, which the solver does not find alone. */
module Arith {

  /** A non-zero multiple of `d` is at least `d` away from zero. */
  lemma MulAwayFromZero(k: int, d: int)
    requires d > 0
    ensures k >= 1 ==> k * d >= d
    ensures k <= -1 ==> k * d <= -d
  {
  }

  /** Division has one quotient: `q*d + r` with `0 <= r < d` divides to `q`. */
  lemma DivUnique(a: int, d: int, q: int, r: int)
    requires d > 0 && 0 <= r < d && a == q * d + r
    ensures a / d == q && a % d == r
  {
    var q', r' := a / d, a % d;
    assert a == q' * d + r';
    assert (q - q') * d == r' - r;
    MulAwayFromZero(q - q', d);
  }

  /** Equal multiples of a positive number have equal factors. */
  lemma MulCancel(a: int, b: int, d: int)
    requires d > 0 && a * d == b * d
    ensures a == b
  {
    assert (a - b) * d == a * d - b * d;
    MulAwayFromZero(a - b, d);
  }

  /** Multiplying by a positive number keeps order. */
  lemma MulMono(a: int, b: int, d: int)
    requires d > 0 && a <= b
    ensures a * d <= b * d
  {
    assert b * d - a * d == (b - a) * d;
    MulAwayFromZero(b - a, d);
  }

  /** Taking `d` off a positive multiple of `d` leaves a multiple of `d` with one factor less. */
  lemma ModStep(n: int, d: int)
    requires d > 0 && n > 0 && n % d == 0
    ensures n >= d && (n - d) % d == 0 && (n - d) / d == n / d - 1
  {
    var q := n / d;
    assert n == q * d;
    MulAwayFromZero(q, d);
    assert n - d == (q - 1) * d + 0;
    DivUnique(n - d, d, q - 1, 0);
  }

  /** Adding one divisor adds one to the quotient. */
  lemma DivAddDivisor(m: nat, d: nat)
    requires d > 0
    ensures (m + d) / d == m / d + 1
  {
    var q, r := m / d, m % d;
    assert m + d == (q + 1) * d + r;
    DivUnique(m + d, d, q + 1, r);
  }
}

=== FILE: chunking.dfy ===
/**
 * The slicing loop that sends a frame as WebSocket messages of at most
 * `PayloadLen` bytes: full slices while more than `PayloadLen` bytes remain,
 * then the remainder if it is non-empty.
 */
module Chunking {
  import opened WireFrame
  import opened Arith

  /** The chunk size the relay uses. */
  const PayloadLen: nat := 10240

  /** Reassembles chunks the way the receiver does, by concatenation. */
  function Concat(cs: seq<seq<byte>>): (r: seq<byte>)
  {
    if |cs| == 0 then [] else cs[0] + Concat(cs[1..])
  }

  /** Every chunk holds 1 to `size` bytes and every chunk but the last is full. */
  predicate WellSized(cs: seq<seq<byte>>, size: nat)
  {
    && (forall i :: 0 <= i < |cs| ==> 1 <= |cs[i]| <= size)
    && (forall i :: 0 <= i < |cs| - 1 ==> |cs[i]| == size)
  }

  /** The messages the loop sends for `buf` when slices are `size` bytes. */
  function Split(buf: seq<byte>, size: nat): (cs: seq<seq<byte>>)
    requires size > 0
    ensures |cs| == 0 <==> |buf| == 0
    ensures |buf| > 0 ==> |cs[0]| == (if |buf| < size then |buf| else size)
    decreases |buf|
  {
    if |buf| > size then [buf[..size]] + Split(buf[size..], size)
    else if |buf| > 0 then [buf]
    else []
  }

  /**
   * Chunk boundaries do not change the byte stream: reassembling the
   * chunks gives the buffer back, whatever the chunk size.
   */
  lemma {:induction false} SplitReassembles(buf: seq<byte>, size: nat)
    requires size > 0
    ensures Concat(Split(buf, size)) == buf
    decreases |buf|
  {
    if |buf| > size {
      SplitReassembles(buf[size..], size);
      assert Split(buf, size)[1..] == Split(buf[size..], size);
      assert buf == buf[..size] + buf[size..];
    }
  }

  /** Every chunk holds 1 to `size` bytes and all but the last are full. */
  lemma {:induction false} SplitWellSized(buf: seq<byte>, size: nat)
    requires size > 0
    ensures WellSized(Split(buf, size), size)
    decreases |buf|
  {
    if |buf| > size {
      SplitWellSized(buf[size..], size);
      var cs := Split(buf, size);
      assert cs == [buf[..size]] + Split(buf[size..], size);
    }
  }

  /** The chunk count is `ceil(|buf| / size)`. */
  lemma {:induction false} SplitCount(buf: seq<byte>, size: nat)
    requires size > 0
    ensures |Split(buf, size)| == (|buf| + size - 1) / size
    decreases |buf|
  {
    if |buf| > size {
      SplitCount(buf[size..], size);
      assert |Split(buf, size)| == 1 + |Split(buf[size..], size)|;
      DivAddDivisor(|buf| - 1, size);
    } else if |buf| > 0 {
      DivUnique(|buf| + size - 1, size, 1, |buf| - 1);
    } else {
      DivUnique(size - 1, size, 0, size - 1);
    }
  }

  /**
   * Chunks are determined by their content and sizes: any well-sized
   * chunking of `buf` is the one the loop produces.
   */
  lemma {:induction false} SplitUnique(buf: seq<byte>, size: nat, cs: seq<seq<byte>>)
    requires size > 0
    requires WellSized(cs, size) && Concat(cs) == buf
    ensures cs == Split(buf, size)
    decreases |cs|
  {
    if |cs| == 0 {
    } else if |cs| == 1 {
      assert Concat(cs) == cs[0] + Concat(cs[1..]);
      assert cs[0] == buf;
    } else {
      assert buf == cs[0] + Concat(cs[1..]);
      assert |Concat(cs[1..])| > 0 by {
        ConcatLength(cs[1..]);
        assert |cs[1..][0]| >= 1;
      }
      assert |buf| > size;
      assert buf[..size] == cs[0];
      assert buf[size..] == Concat(cs[1..]);
      SplitUnique(buf[size..], size, cs[1..]);
    }
  }

  /** Concatenation is at least as long as any non-empty leading chunk. */
  lemma {:induction false} ConcatLength(cs: seq<seq<byte>>)
    requires |cs| > 0
    ensures |Concat(cs)| >= |cs[0]|
  {
    assert Concat(cs) == cs[0] + Concat(cs[1..]);
  }

  /** Reassembling a prefix of the chunks gives a prefix of the buffer. */
  lemma {:induction false} ConcatPrefix(cs: seq<seq<byte>>, k: nat)
    requires k <= |cs|
    ensures Concat(cs[..k]) + Concat(cs[k..]) == Concat(cs)
  {
    if k > 0 {
      ConcatPrefix(cs[1..], k - 1);
      assert cs[..k] == [cs[0]] + cs[1..][..k - 1];
      assert cs[k..] == cs[1..][k - 1..];
      assert Concat(cs[..k]) == cs[0] + Concat(cs[1..][..k - 1]);
    } else {
      assert cs[..0] == [] && cs[0..] == cs;
    }
  }

  /** A buffer of exactly one chunk's size goes as a single message. */
  lemma ExactlyOneChunk(buf: seq<byte>, size: nat)
    requires size > 0 && |buf| == size
    ensures Split(buf, size) == [buf]
  {
  }

  /** A non-empty buffer, in particular every frame, yields at least one message. */
  lemma NonEmptyHasChunk(buf: seq<byte>, size: nat)
    requires size > 0 && |buf| > 0
    ensures |Split(buf, size)| >= 1
    ensures Split(buf, size)[0] == buf[..if |buf| < size then |buf| else size]
  {
  }

  /**
   * The relay's loop: send the first `PayloadLen` bytes while more than
   * that remains, then the non-empty remainder.
   */
  method SendChunks(frame: seq<byte>) returns (sent: seq<seq<byte>>)
    ensures sent == Split(frame, PayloadLen)
  {
    var buf := frame;
    sent := [];
    while |buf| > PayloadLen
      invariant sent + Split(buf, PayloadLen) == Split(frame, PayloadLen)
      decreases |buf|
    {
      assert Split(buf, PayloadLen) == [buf[..PayloadLen]] + Split(buf[PayloadLen..], PayloadLen);
      sent := sent + [buf[..PayloadLen]];
      buf := buf[PayloadLen..];
    }
    if |buf| > 0 {
      assert Split(buf, PayloadLen) == [buf];
      sent := sent + [buf];
    } else {
      assert Split(buf, PayloadLen) == [];
    }
  }
}

=== FILE: envelope.dfy ===
/**
 * The JSON body returned to the caller: `{text}` by default, or the
 * verbose shape with a task, language, duration and one placeholder
 * segment when the requested format is exactly "verbose_json".
 */
module Envelope {
  import opened Results
  import Text

  const VerboseFormat: string := "verbose_json"
  const Task: string := "transcribe"
  const AutoLanguage: string := "auto"

  /** `len(samples) / sample_rate` with a zero rate raises ZeroDivisionError with this message. */
  const ZeroDivisionMessage: string := "division by zero"

  datatype Segment = Segment(
    id: nat, seek: nat, start: real, end: real, text: string, tokens: seq<int>,
    temperature: real, avgLogprob: real, compressionRatio: real, noSpeechProb: real)

  datatype Body =
    | Compact(text: string)
    | Verbose(text: string, task: string, language: string, duration: real, segments: seq<Segment>)

  /** The form fields that shape the body. */
  datatype Options = Options(responseFormat: Option<string>, language: Option<string>, temperature: Option<real>)

  /** Python's `language or "auto"`: a missing or empty hint falls back. */
  function LanguageOrAuto(language: Option<string>): (l: string)
    ensures language.Some? && language.value != "" ==> l == language.value
    ensures language.None? || language.value == "" ==> l == AutoLanguage
  {
    if language.Some? && language.value != "" then language.value else AutoLanguage
  }

  /** Python's `temperature or 0.0`. */
  function TemperatureOrZero(temperature: Option<real>): (t: real)
    ensures temperature.Some? ==> t == temperature.value
    ensures temperature.None? ==> t == 0.0
  {
    if temperature.Some? then temperature.value else 0.0
  }

  /** The single placeholder segment: only its end, text and temperature carry information. */
  predicate PlaceholderSegment(s: Segment, duration: real, text: string, temperature: real)
  {
    && s.id == 0 && s.seek == 0 && s.start == 0.0 && s.end == duration
    && s.text == text && s.tokens == [] && s.temperature == temperature
    && s.avgLogprob == 0.0 && s.compressionRatio == 1.0 && s.noSpeechProb == 0.0
  }

  /** Division undone by multiplication, kept apart from the body it is used in so the solver sees only this one product. */
  lemma DivTimesDivisor(a: real, b: real)
    requires b != 0.0
    ensures (a / b) * b == a
  {
  }

  /** The verbose body for a positive rate: the duration is the sample count over the rate. */
  function VerboseBody(text: string, sampleCount: nat, rate: nat, opts: Options): (b: Body)
    requires rate > 0
    ensures b.Verbose? && b.text == text
    ensures b.task == Task && b.language == LanguageOrAuto(opts.language)
    ensures b.duration * rate as real == sampleCount as real
    ensures |b.segments| == 1
    ensures PlaceholderSegment(b.segments[0], b.duration, text, TemperatureOrZero(opts.temperature))
  {
    var duration := sampleCount as real / rate as real;
    DivTimesDivisor(sampleCount as real, rate as real);
    var segment := Segment(0, 0, 0.0, duration, text, [], TemperatureOrZero(opts.temperature), 0.0, 1.0, 0.0);
    Verbose(text, Task, LanguageOrAuto(opts.language), duration, [segment])
  }

  /**
   * Shapes the backend's reply for `sampleCount` mono samples at `rate` Hz.
   * The verbose shape divides by the rate, so a zero rate fails there.
   */
  function Shape(reply: string, sampleCount: nat, rate: nat, opts: Options): (r: Result<Body, string>)
    ensures r.Err? <==> opts.responseFormat == Some(VerboseFormat) && rate == 0
    ensures r.Err? ==> r.error == ZeroDivisionMessage
    ensures r.Ok? ==> r.value.text == Text.Strip(reply)
    ensures r.Ok? ==> (r.value.Verbose? <==> opts.responseFormat == Some(VerboseFormat))
  {
    var text := Text.Strip(reply);
    if opts.responseFormat != Some(VerboseFormat) then Ok(Compact(text))
    else if rate == 0 then Err(ZeroDivisionMessage)
    else Ok(VerboseBody(text, sampleCount, rate, opts))
  }

  /**
   * The verbose body adds the task, the language hint or "auto", a
   * duration that is the sample count over the rate, and one placeholder
   * segment spanning the whole audio.
   */
  lemma VerboseFields(reply: string, sampleCount: nat, rate: nat, opts: Options)
    requires opts.responseFormat == Some(VerboseFormat) && rate > 0
    ensures var r := Shape(reply, sampleCount, rate, opts);
      && r.Ok? && r.value.Verbose?
      && r.value.task == Task
      && r.value.language == LanguageOrAuto(opts.language)
      && r.value.duration * rate as real == sampleCount as real
      && |r.value.segments| == 1
      && PlaceholderSegment(r.value.segments[0], r.value.duration, r.value.text, TemperatureOrZero(opts.temperature))
  {
  }

  /** 32000 samples at 16000 Hz last 2.0 seconds. */
  lemma TwoSecondsExample(reply: string, opts: Options)
    requires opts.responseFormat == Some(VerboseFormat)
    ensures Shape(reply, 32000, 16000, opts).Ok?
    ensures Shape(reply, 32000, 16000, opts).value.duration == 2.0
    ensures Shape(reply, 32000, 16000, opts).value.segments[0].end == 2.0
  {
  }

  /** The format match is exact: other spellings and a missing format give the compact body. */
  lemma OtherFormatsAreCompact(reply: string, n: nat, rate: nat, language: Option<string>, temperature: Option<real>)
    ensures Shape(reply, n, rate, Options(Some("json"), language, temperature)) == Ok(Compact(Text.Strip(reply)))
    ensures Shape(reply, n, rate, Options(Some("VERBOSE_JSON"), language, temperature)) == Ok(Compact(Text.Strip(reply)))
    ensures Shape(reply, n, rate, Options(None, language, temperature)) == Ok(Compact(Text.Strip(reply)))
  {
    assert "VERBOSE_JSON" != VerboseFormat by {
      assert "VERBOSE_JSON"[0] != VerboseFormat[0];
    }
  }
}

=== FILE: ffmpeg.dfy ===
/**
 * The command line of the external converter.  Running it is an oracle;
 * what is modelled is the argument vector and what it asks for.
 */
module Ffmpeg {
  import opened Results

  /** `convert_to_wav`'s argv: resample to 16 kHz, one channel, signed 16-bit, overwrite the output. */
  function Argv(input: string, output: string): (argv: seq<string>)
    ensures |argv| == 11 && argv[0] == "ffmpeg"
  {
    ["ffmpeg", "-i", input, "-ar", "16000", "-ac", "1", "-sample_fmt", "s16", "-y", output]
  }

  /** Rate, channel count and sample format settings; `None` leaves the file's own. */
  datatype Settings = Settings(rate: Option<string>, channels: Option<string>, sampleFormat: Option<string>)

  const NoSettings := Settings(None, None, None)

  /**
   * What a command line asks the converter to do.  As ffmpeg reads a
   * command line, settings written before `-i` describe how to read the
   * input file and settings after it describe the output file; `-y` is
   * global and may stand anywhere.
   */
  datatype Job = Job(inputSettings: Settings, input: string, outputSettings: Settings, overwrite: bool, output: string)

  /** The parser's state: settings waiting for the next file, the input file once seen, and `-y`. */
  datatype Scan = Scan(pending: Settings, input: Option<(Settings, string)>, overwrite: bool)

  /**
   * Reads `-i`, `-ar`, `-ac`, `-sample_fmt` (each with a value) and `-y`;
   * `-i` hands the pending settings to the input file.  Anything else, a
   * missing value or a second input file is rejected.
   */
  function ParseOptions(args: seq<string>, acc: Scan): (r: Option<Scan>)
    decreases |args|
  {
    if |args| == 0 then Some(acc)
    else if args[0] == "-y" then ParseOptions(args[1..], acc.(overwrite := true))
    else if |args| < 2 then None
    else if args[0] == "-i" then
      if acc.input.Some? then None
      else ParseOptions(args[2..], acc.(input := Some((acc.pending, args[1])), pending := NoSettings))
    else if args[0] == "-ar" then ParseOptions(args[2..], acc.(pending := acc.pending.(rate := Some(args[1]))))
    else if args[0] == "-ac" then ParseOptions(args[2..], acc.(pending := acc.pending.(channels := Some(args[1]))))
    else if args[0] == "-sample_fmt" then ParseOptions(args[2..], acc.(pending := acc.pending.(sampleFormat := Some(args[1]))))
    else None
  }

  /**
   * Reads a converter command line: the program, options with exactly one
   * input file, then the output file, which takes the settings left after
   * the input.
   */
  function Parse(argv: seq<string>): (r: Option<Job>)
    ensures r.Some? ==> |argv| >= 2 && argv[0] == "ffmpeg" && r.value.output == argv[|argv| - 1]
  {
    if |argv| < 2 || argv[0] != "ffmpeg" then None
    else match ParseOptions(argv[1..|argv| - 1], Scan(NoSettings, None, false))
      case None => None
      case Some(sc) =>
        if sc.input.None? then None
        else Some(Job(sc.input.value.0, sc.input.value.1, sc.pending, sc.overwrite, argv[|argv| - 1]))
  }

  /** What `convert_to_wav` asks for: the input read as it is, the output written as 16000 Hz, 1 channel, s16. */
  function CanonicalJob(input: string, output: string): Job
  {
    Job(NoSettings, input, Settings(Some("16000"), Some("1"), Some("s16")), true, output)
  }

  /**
   * Whatever the two paths are, the command line asks for the input file,
   * read with its own settings, converted to 16000 Hz, 1 channel, s16
   * samples, overwriting the output file.
   */
  lemma ArgvRequestsCanonicalPcm(input: string, output: string)
    ensures Parse(Argv(input, output)) == Some(CanonicalJob(input, output))
  {
    var a := Argv(input, output);
    var opts := a[1..|a| - 1];
    assert opts == ["-i", input, "-ar", "16000", "-ac", "1", "-sample_fmt", "s16", "-y"];
    assert opts[2..] == ["-ar", "16000", "-ac", "1", "-sample_fmt", "s16", "-y"];
    assert opts[2..][2..] == ["-ac", "1", "-sample_fmt", "s16", "-y"];
    assert opts[2..][2..][2..] == ["-sample_fmt", "s16", "-y"];
    assert opts[2..][2..][2..][2..] == ["-y"];
    assert opts[2..][2..][2..][2..][1..] == [];
    var s1 := Scan(NoSettings, Some((NoSettings, input)), false);
    var s2 := s1.(pending := Settings(Some("16000"), None, None));
    var s3 := s1.(pending := Settings(Some("16000"), Some("1"), None));
    var s4 := s1.(pending := Settings(Some("16000"), Some("1"), Some("s16")));
    var s5 := s4.(overwrite := true);
    assert ParseOptions(opts[2..][2..][2..][2..], s4) == Some(s5);
    assert ParseOptions(opts[2..][2..][2..], s3) == Some(s5);
    assert ParseOptions(opts[2..][2..], s2) == Some(s5);
    assert ParseOptions(opts[2..], s1) == Some(s5);
    assert ParseOptions(opts, Scan(NoSettings, None, false)) == Some(s5);
  }

  /**
   * Position matters: the same words with `-ar 16000` moved before `-i`
   * set the input's rate instead of the output's, a different job.
   */
  lemma MisplacedRateAppliesToInput(input: string, output: string)
    ensures var moved := ["ffmpeg", "-y", "-ar", "16000", "-i", input, "-ac", "1", "-sample_fmt", "s16", output];
      && Parse(moved) == Some(Job(Settings(Some("16000"), None, None), input, Settings(None, Some("1"), Some("s16")), true, output))
      && Parse(moved) != Parse(Argv(input, output))
  {
    var moved := ["ffmpeg", "-y", "-ar", "16000", "-i", input, "-ac", "1", "-sample_fmt", "s16", output];
    var opts := moved[1..|moved| - 1];
    assert opts == ["-y", "-ar", "16000", "-i", input, "-ac", "1", "-sample_fmt", "s16"];
    assert opts[1..] == ["-ar", "16000", "-i", input, "-ac", "1", "-sample_fmt", "s16"];
    assert opts[1..][2..] == ["-i", input, "-ac", "1", "-sample_fmt", "s16"];
    assert opts[1..][2..][2..] == ["-ac", "1", "-sample_fmt", "s16"];
    assert opts[1..][2..][2..][2..] == ["-sample_fmt", "s16"];
    assert opts[1..][2..][2..][2..][2..] == [];
    var rate := Settings(Some("16000"), None, None);
    var s1 := Scan(NoSettings, None, true);
    var s2 := s1.(pending := rate);
    var s3 := Scan(NoSettings, Some((rate, input)), true);
    var s4 := s3.(pending := Settings(None, Some("1"), None));
    var s5 := s3.(pending := Settings(None, Some("1"), Some("s16")));
    assert ParseOptions(opts[1..][2..][2..][2..], s4) == Some(s5);
    assert ParseOptions(opts[1..][2..][2..], s3) == Some(s5);
    assert ParseOptions(opts[1..][2..], s2) == Some(s5);
    assert ParseOptions(opts[1..], s1) == Some(s5);
    assert ParseOptions(opts, Scan(NoSettings, None, false)) == Some(s5);
    ArgvRequestsCanonicalPcm(input, output);
  }

  /** Different paths give different command lines. */
  lemma ArgvInjective(i1: string, o1: string, i2: string, o2: string)
    requires Argv(i1, o1) == Argv(i2, o2)
    ensures i1 == i2 && o1 == o2
  {
    assert Argv(i1, o1)[2] == Argv(i2, o2)[2];
    assert Argv(i1, o1)[10] == Argv(i2, o2)[10];
  }
}

=== FILE: paths.dfy ===
/**
 * Choosing the conversion path from the upload's filename: the extension
 * `os.path.splitext` (POSIX flavour) finds, lower-cased, with `.webm` when
 * there is none.
 */
module Paths {
  import Text

  const WavSuffix: string := ".wav"
  const DefaultSuffix: string := ".webm"

  /** The last position of `c` in `s`, or -1 (`str.rfind`). */
  function LastIndex(s: string, c: char): (i: int)
    ensures -1 <= i < |s|
    ensures i >= 0 ==> s[i] == c
    ensures forall k :: i < k < |s| ==> s[k] != c
  {
    if |s| == 0 then -1
    else if s[|s| - 1] == c then |s| - 1
    else LastIndex(s[..|s| - 1], c)
  }

  /**
   * `posixpath.splitext`: the extension starts at the last '.' when that
   * dot lies in the last path component and something other than a dot
   * precedes it there; otherwise it is empty.
   */
  function SplitExt(p: string): (r: (string, string))
    ensures r.0 + r.1 == p
  {
    var sep := LastIndex(p, '/');
    var dot := LastIndex(p, '.');
    if dot > sep && exists k :: sep < k < dot && p[k] != '.' then (p[..dot], p[dot..])
    else (p, "")
  }

  /** A dot followed by neither dots nor slashes. */
  predicate ExtensionShaped(ext: string)
  {
    |ext| > 0 && ext[0] == '.' && forall k :: 1 <= k < |ext| ==> ext[k] != '.' && ext[k] != '/'
  }

  /** The last component of `root` has a character other than '.'. */
  predicate NamedStem(root: string)
  {
    exists k :: 0 <= k < |root| && root[k] != '.' && root[k] != '/' && NoSlashAfter(root, k)
  }

  predicate NoSlashAfter(s: string, k: int)
  {
    forall m :: 0 <= m < |s| && k < m ==> s[m] != '/'
  }

  /** `p` splits into a named stem and an extension. */
  predicate HasExtension(p: string, root: string, ext: string)
  {
    p == root + ext && ExtensionShaped(ext) && NamedStem(root)
  }

  /** A non-empty extension is a real one. */
  lemma SplitExtSound(p: string)
    requires SplitExt(p).1 != ""
    ensures HasExtension(p, SplitExt(p).0, SplitExt(p).1)
  {
    var sep := LastIndex(p, '/');
    var dot := LastIndex(p, '.');
    var k :| sep < k < dot && p[k] != '.';
    assert NoSlashAfter(p[..dot], k);
  }

  /** Every way of splitting off an extension is the one `SplitExt` finds. */
  lemma SplitExtComplete(p: string, root: string, ext: string)
    requires HasExtension(p, root, ext)
    ensures SplitExt(p) == (root, ext)
  {
    var k :| 0 <= k < |root| && root[k] != '.' && root[k] != '/' && NoSlashAfter(root, k);
    var sep := LastIndex(p, '/');
    var dot := LastIndex(p, '.');
    assert p[|root|] == '.';
    assert dot == |root|;
    assert p[k] == root[k];
    assert sep < k;
    assert p[..dot] == root && p[dot..] == ext;
  }

  /** A bare dot-file such as ".wav" has no extension. */
  lemma DotFileHasNoExtension()
    ensures SplitExt(".wav") == (".wav", "")
  {
    var p := ".wav";
    assert p[0] == '.' && p[1] == 'w' && p[2] == 'a' && p[3] == 'v';
    assert LastIndex(p, '.') == 0;
  }

  /** The extension is taken from the last dot only. */
  lemma LastDotWins()
    ensures SplitExt("clip.tar.WAV") == ("clip.tar", ".WAV")
  {
    assert HasExtension("clip.tar.WAV", "clip.tar", ".WAV") by {
      assert NoSlashAfter("clip.tar", 0);
    }
    SplitExtComplete("clip.tar.WAV", "clip.tar", ".WAV");
  }

  /** `file_suffix`: the lower-cased extension, or ".webm" when there is none. */
  function FileSuffix(filename: string): (s: string)
    ensures ExtensionShaped(s)
    ensures Text.Lower(s) == s
    ensures SplitExt(filename).1 == "" ==> s == DefaultSuffix
    ensures SplitExt(filename).1 != "" ==> s == Text.Lower(SplitExt(filename).1)
  {
    var ext := SplitExt(filename).1;
    if ext == "" then DefaultSuffix
    else
      SplitExtSound(filename);
      Text.LowerIdempotent(ext);
      Text.Lower(ext)
  }

  /** The upload is copied rather than converted exactly when its extension reads ".wav" in any case. */
  lemma WavIsCaseInsensitive(filename: string)
    ensures FileSuffix(filename) == WavSuffix <==> Text.Lower(SplitExt(filename).1) == WavSuffix
  {
  }

  lemma UpperCaseWav()
    ensures FileSuffix("REC.WAV") == WavSuffix
  {
    assert HasExtension("REC.WAV", "REC", ".WAV") by {
      assert NoSlashAfter("REC", 0);
    }
    SplitExtComplete("REC.WAV", "REC", ".WAV");
  }

  lemma NoExtensionDefaultsToWebm()
    ensures FileSuffix("recording") == DefaultSuffix
  {
    var p := "recording";
    assert forall k :: 0 <= k < |p| ==> p[k] != '.';
    assert LastIndex(p, '.') == -1;
  }
}

=== FILE: pcm.dfy ===
/**
 * Reading the normalized WAV file: only 16-bit samples are accepted, each
 * little-endian int16 is scaled by 1/32768, and multi-channel frames are
 * averaged down to one channel.  Amplitudes are exact rationals; the
 * float32 rounding of the arithmetic is not modelled.
 */
module Pcm {
  import opened Results
  import opened WireFrame
  import Text
  import opened Arith

  /** What the `wave` module reports about a file: its header fields and the bytes `readframes` returned. */
  datatype WaveFile = WaveFile(channels: nat, sampleWidth: nat, sampleRate: nat, frameCount: nat, frames: seq<byte>)

  /** Mono samples and the sample rate the header declared. */
  datatype Audio = Audio(samples: seq<real>, rate: nat)

  /** The ValueErrors raised while decoding. */
  datatype PcmError =
    | UnsupportedWidth(width: nat)           // the relay's own check
    | PartialSample(size: nat)               // `np.frombuffer` on an odd number of bytes
    | CannotReshape(size: nat, channels: nat) // `reshape(-1, channels)` on a count that does not divide

  /** The start of the relay's own width message. */
  const WidthMessage: string := "不支持的采样宽度: "

  /**
   * `str(e)` of each error; the numpy texts are paraphrased.  Only the
   * width error carries the width message, and the width can be read back
   * from what follows it.
   */
  function ErrorMessage(e: PcmError): (m: string)
    ensures e.UnsupportedWidth? <==> WidthMessage <= m
    ensures e.UnsupportedWidth? ==>
      && (forall k :: |WidthMessage| <= k < |m| ==> '0' <= m[k] <= '9')
      && Text.ParseDecimal(m[|WidthMessage|..]) == e.width
  {
    match e
    case UnsupportedWidth(w) =>
      var m := WidthMessage + Text.Decimal(w);
      assert m[|WidthMessage|..] == Text.Decimal(w);
      Text.DecimalRoundTrip(w);
      m
    case PartialSample(n) =>
      var head := "buffer ";
      var m := head + "size must be a multiple of element size";
      assert m[0] == head[0] != WidthMessage[0];
      m
    case CannotReshape(n, c) =>
      var head := "cannot reshape array of size ";
      var m := head + Text.Decimal(n) + " into " + Text.Decimal(c) + " columns";
      assert m[0] == head[0] != WidthMessage[0];
      m
  }

  predicate InInt16(v: int)
  {
    -32768 <= v < 32768
  }

  /** One little-endian two's-complement int16. */
  function Int16(lo: byte, hi: byte): (v: int)
    ensures InInt16(v)
    ensures (v + 65536) % 65536 == lo as int + 256 * hi as int
  {
    var u := lo as int + 256 * hi as int;
    if u >= 32768 then u - 65536 else u
  }

  /** The two bytes that store `v`. */
  function Int16Bytes(v: int): (b: seq<byte>)
    requires InInt16(v)
    ensures |b| == 2
    ensures Int16(b[0], b[1]) == v
  {
    var u := if v < 0 then v + 65536 else v;
    [(u % 256) as byte, (u / 256) as byte]
  }

  /** `np.frombuffer(frames, dtype=np.int16)` on a little-endian host. */
  function Int16s(b: seq<byte>): (vs: seq<int>)
    requires |b| % 2 == 0
    ensures 2 * |vs| == |b|
    ensures forall i :: 0 <= i < |vs| ==> InInt16(vs[i])
  {
    seq(|b| / 2, i requires 0 <= i < |b| / 2 => Int16(b[2 * i], b[2 * i + 1]))
  }

  /** The byte buffer that stores `vs`. */
  function Int16Buffer(vs: seq<int>): (b: seq<byte>)
    requires forall i :: 0 <= i < |vs| ==> InInt16(vs[i])
    ensures |b| == 2 * |vs|
  {
    if |vs| == 0 then [] else Int16Bytes(vs[0]) + Int16Buffer(vs[1..])
  }

  /** Reading a buffer of int16s gives back exactly the values stored. */
  lemma {:induction false} Int16sRoundTrip(vs: seq<int>)
    requires forall i :: 0 <= i < |vs| ==> InInt16(vs[i])
    ensures Int16s(Int16Buffer(vs)) == vs
  {
    if |vs| > 0 {
      var b := Int16Buffer(vs);
      var tail := Int16Buffer(vs[1..]);
      Int16sRoundTrip(vs[1..]);
      assert b == Int16Bytes(vs[0]) + tail;
      forall i | 1 <= i < |vs|
        ensures Int16s(b)[i] == vs[i]
      {
        assert b[2 * i] == tail[2 * (i - 1)];
        assert b[2 * i + 1] == tail[2 * (i - 1) + 1];
        assert Int16s(tail)[i - 1] == vs[1..][i - 1];
      }
    }
  }

  /** `v / 32768.0`. */
  function Scale(v: int): (x: real)
    requires InInt16(v)
    ensures -1.0 <= x < 1.0
    ensures x * 32768.0 == v as real
    ensures x == -1.0 <==> v == -32768
  {
    v as real / 32768.0
  }

  /** The extreme int16 values land on -1 exactly and just below 1. */
  lemma ScaleExtremes()
    ensures Scale(-32768) == -1.0
    ensures Scale(32767) == 32767.0 / 32768.0
    ensures Scale(0) == 0.0
  {
  }

  function ScaleAll(vs: seq<int>): (xs: seq<real>)
    requires forall i :: 0 <= i < |vs| ==> InInt16(vs[i])
    ensures |xs| == |vs|
    ensures forall i :: 0 <= i < |xs| ==> xs[i] * 32768.0 == vs[i] as real
  {
    seq(|vs|, i requires 0 <= i < |vs| => Scale(vs[i]))
  }

  predicate Normalized(xs: seq<real>)
  {
    forall i :: 0 <= i < |xs| ==> -1.0 <= xs[i] < 1.0
  }

  function Sum(xs: seq<real>): real
  {
    if |xs| == 0 then 0.0 else xs[0] + Sum(xs[1..])
  }

  /** The arithmetic mean of one frame, as `np.mean` computes it. */
  function Mean(xs: seq<real>): (m: real)
    requires |xs| > 0
    ensures m * |xs| as real == Sum(xs)
  {
    Sum(xs) / |xs| as real
  }

  lemma {:induction false} SumBounds(xs: seq<real>)
    requires Normalized(xs)
    ensures -(|xs| as real) <= Sum(xs)
    ensures |xs| > 0 ==> Sum(xs) < |xs| as real
  {
    if |xs| > 0 {
      SumBounds(xs[1..]);
    }
  }

  /** Dividing by a positive number keeps the order of the dividends. */
  lemma DivMonotone(a: real, b: real, n: real)
    requires n > 0.0 && a <= b
    ensures a / n <= b / n
    ensures a < b ==> a / n < b / n
  {
    assert b / n - a / n == (b - a) / n;
  }

  /** The mean of normalized samples is normalized. */
  lemma MeanBounds(xs: seq<real>)
    requires |xs| > 0 && Normalized(xs)
    ensures -1.0 <= Mean(xs) < 1.0
  {
    SumBounds(xs);
    var n := |xs| as real;
    DivMonotone(-n, Sum(xs), n);
    DivMonotone(Sum(xs), n, n);
    assert -n / n == -1.0 && n / n == 1.0;
    assert Mean(xs) == Sum(xs) / n;
  }

  /** `np.mean(samples.reshape(-1, c), axis=1)`: one mean per `c`-sample frame. */
  function Downmix(xs: seq<real>, c: nat): (ys: seq<real>)
    requires c > 0 && |xs| % c == 0
    ensures |ys| * c == |xs|
    decreases |xs|
  {
    if |xs| == 0 then []
    else
      ModStep(|xs|, c);
      var rest := Downmix(xs[c..], c);
      assert (|rest| + 1) * c == |rest| * c + c;
      [Mean(xs[..c])] + rest
  }

  /** Output `i` is the mean of interleaved frame `i`. */
  lemma {:induction false} DownmixAt(xs: seq<real>, c: nat, i: nat)
    requires c > 0 && |xs| % c == 0 && i < |Downmix(xs, c)|
    ensures (i + 1) * c <= |xs| && Downmix(xs, c)[i] == Mean(xs[i * c..(i + 1) * c])
    decreases i
  {
    ModStep(|xs|, c);
    var rest := xs[c..];
    assert Downmix(xs, c) == [Mean(xs[..c])] + Downmix(rest, c);
    MulMono(i + 1, |Downmix(xs, c)|, c);
    if i == 0 {
      assert i * c == 0 && (i + 1) * c == c;
    } else {
      var j := i - 1;
      DownmixAt(rest, c, j);
      assert (j + 1) * c == i * c && i * c == j * c + c;
      assert (i + 1) * c == i * c + c;
      assert rest[j * c..(j + 1) * c] == xs[i * c..(i + 1) * c];
    }
  }

  /** With one channel there is nothing to average. */
  lemma {:induction false} DownmixMono(xs: seq<real>)
    ensures Downmix(xs, 1) == xs
  {
    if |xs| > 0 {
      DownmixMono(xs[1..]);
      assert xs[..1] == [xs[0]];
      assert Sum(xs[..1]) == xs[0] + Sum(xs[..1][1..]);
      assert Mean(xs[..1]) == xs[0];
      assert Downmix(xs, 1) == [Mean(xs[..1])] + Downmix(xs[1..], 1);
      assert xs == [xs[0]] + xs[1..];
    }
  }

  /** Averaging keeps samples in [-1, 1). */
  lemma {:induction false} DownmixBounds(xs: seq<real>, c: nat)
    requires c > 0 && |xs| % c == 0 && Normalized(xs)
    ensures Normalized(Downmix(xs, c))
    decreases |xs|
  {
    if |xs| > 0 {
      ModStep(|xs|, c);
      MeanBounds(xs[..c]);
      DownmixBounds(xs[c..], c);
    }
  }

  /** Frames (1.0, -1.0) and (0.5, 0.5) average to 0.0 and 0.5. */
  lemma DownmixStereoExample()
    ensures Downmix([1.0, -1.0, 0.5, 0.5], 2) == [0.0, 0.5]
  {
    var xs := [1.0, -1.0, 0.5, 0.5];
    assert xs[..2] == [1.0, -1.0] && xs[2..] == [0.5, 0.5];
    assert Sum([1.0, -1.0]) == 0.0;
    assert Sum([0.5, 0.5]) == 1.0;
    assert xs[2..][2..] == [];
  }

  /**
   * `read_wave`: rejects every sample width other than 2 bytes before
   * touching the data, converts the int16s, averages frames when there is
   * more than one channel, and returns the header's own sample rate.
   */
  function ReadWave(w: WaveFile): (r: Result<Audio, PcmError>)
    ensures w.sampleWidth != 2 ==> r == Err(UnsupportedWidth(w.sampleWidth))
    ensures r.Ok? <==>
      && w.sampleWidth == 2
      && |w.frames| % 2 == 0
      && (w.channels <= 1 || (|w.frames| / 2) % w.channels == 0)
    ensures r.Ok? ==> r.value.rate == w.sampleRate && Normalized(r.value.samples)
    ensures r.Ok? && w.channels <= 1 ==> 2 * |r.value.samples| == |w.frames|
    ensures r.Ok? && w.channels > 1 ==> 2 * w.channels * |r.value.samples| == |w.frames|
  {
    if w.sampleWidth != 2 then Err(UnsupportedWidth(w.sampleWidth))
    else if |w.frames| % 2 != 0 then Err(PartialSample(|w.frames|))
    else
      var xs := ScaleAll(Int16s(w.frames));
      if w.channels > 1 then
        if |xs| % w.channels != 0 then Err(CannotReshape(|xs|, w.channels))
        else
          DownmixBounds(xs, w.channels);
          Ok(Audio(Downmix(xs, w.channels), w.sampleRate))
      else Ok(Audio(xs, w.sampleRate))
  }

  /** A mono file's samples are its int16 values over 32768, in order. */
  lemma ReadWaveMono(w: WaveFile)
    requires ReadWave(w).Ok? && w.channels <= 1
    ensures forall i :: 0 <= i < |ReadWave(w).value.samples| ==>
      ReadWave(w).value.samples[i] * 32768.0 == Int16(w.frames[2 * i], w.frames[2 * i + 1]) as real
  {
  }

  /** The sum of the int16s stored as `count` consecutive samples from sample `start` on. */
  function ChannelSum(frames: seq<byte>, start: nat, count: nat): int
    requires 2 * (start + count) <= |frames|
    decreases count
  {
    if count == 0 then 0
    else Int16(frames[2 * start], frames[2 * start + 1]) + ChannelSum(frames, start + 1, count - 1)
  }

  /** Scaled samples sum to the int16 sum over 32768. */
  lemma {:induction false} ScaledSum(frames: seq<byte>, start: nat, count: nat)
    requires |frames| % 2 == 0 && 2 * (start + count) <= |frames|
    ensures Sum(ScaleAll(Int16s(frames))[start..start + count]) * 32768.0 == ChannelSum(frames, start, count) as real
    decreases count
  {
    var xs := ScaleAll(Int16s(frames));
    var s := xs[start..start + count];
    if count > 0 {
      ScaledSum(frames, start + 1, count - 1);
      assert s[1..] == xs[start + 1..start + 1 + (count - 1)];
      assert s[0] * 32768.0 == Int16(frames[2 * start], frames[2 * start + 1]) as real;
      assert Sum(s) * 32768.0 == s[0] * 32768.0 + Sum(s[1..]) * 32768.0;
    }
  }

  /** Output `i` is the mean of the `c` samples from `i * c` on. */
  lemma DownmixFrom(xs: seq<real>, c: nat, i: nat, start: nat)
    requires c > 0 && |xs| % c == 0 && i < |Downmix(xs, c)| && start == i * c
    ensures start + c <= |xs| && Downmix(xs, c)[i] == Mean(xs[start..start + c])
  {
    DownmixAt(xs, c, i);
    assert (i + 1) * c == start + c;
  }

  /** A sample that is the mean of a frame, times the frame's length, is the frame's sum. */
  lemma MeanTimesCount(y: real, frame: seq<real>, c: nat)
    requires c > 0 && |frame| == c && y == Mean(frame)
    ensures y * (c as real) == Sum(frame)
  {
    SameProduct(y, Mean(frame), c, |frame|, Sum(frame));
  }

  /**
   * Equal factors give equal products.  A separate step so that the
   * caller's context, full of sums and means, never sees the product.
   */
  lemma SameProduct(y: real, m: real, c: nat, n: nat, s: real)
    requires y == m && c == n && m * (n as real) == s
    ensures y * (c as real) == s
  {
  }

  /** A sample that is the mean of `c` scaled int16s is their sum over `c` times 32768. */
  lemma SampleFromFrame(frames: seq<byte>, y: real, c: nat, start: nat)
    requires |frames| % 2 == 0 && c > 0 && start + c <= |frames| / 2
    requires y == Mean(ScaleAll(Int16s(frames))[start..start + c])
    ensures FrameSum(frames, y, c, start)
  {
    MeanTimesCount(y, ScaleAll(Int16s(frames))[start..start + c], c);
    ScaledSum(frames, start, c);
  }

  /**
   * Sample `y` times `c` and 32768 is the sum of the `c` int16s stored from
   * sample `start` on: `y` is their mean, scaled by 1/32768.
   */
  predicate FrameSum(frames: seq<byte>, y: real, c: nat, start: int)
  {
    && 0 <= start && 2 * (start + c) <= |frames|
    && y * (c as real) * 32768.0 == ChannelSum(frames, start, c) as real
  }

  /** Each sample of the downmix is the scaled mean of the `c` int16s of its frame. */
  lemma DownmixFrames(frames: seq<byte>, c: nat, ys: seq<real>)
    requires |frames| % 2 == 0 && c > 0 && (|frames| / 2) % c == 0
    requires ys == Downmix(ScaleAll(Int16s(frames)), c)
    ensures forall i :: 0 <= i < |ys| ==> FrameSum(frames, ys[i], c, i * c)
  {
    var xs := ScaleAll(Int16s(frames));
    forall i | 0 <= i < |ys|
      ensures FrameSum(frames, ys[i], c, i * c)
    {
      var start := i * c;
      DownmixFrom(xs, c, i, start);
      SampleFromFrame(frames, ys[i], c, start);
    }
  }

  /**
   * A multi-channel file's sample `i`, times the channel count and 32768,
   * is the sum of the int16s of the channels of frame `i`.
   */
  lemma ReadWaveMultiChannel(w: WaveFile)
    requires ReadWave(w).Ok? && w.channels > 1
    ensures var ys, c := ReadWave(w).value.samples, w.channels;
      forall i :: 0 <= i < |ys| ==> FrameSum(w.frames, ys[i], c, i * c)
  {
    DownmixFrames(w.frames, w.channels, ReadWave(w).value.samples);
  }

  /** When the data holds every declared frame, one sample comes out per frame. */
  lemma ReadWaveFrameCount(w: WaveFile)
    requires w.sampleWidth == 2 && w.channels >= 1
    requires |w.frames| == 2 * w.channels * w.frameCount
    ensures ReadWave(w).Ok?
    ensures |ReadWave(w).value.samples| == w.frameCount
  {
    assert |w.frames| / 2 == w.channels * w.frameCount;
    if w.channels > 1 {
      var xs := ScaleAll(Int16s(w.frames));
      assert |xs| == w.frameCount * w.channels;
      DivUnique(|xs|, w.channels, w.frameCount, 0);
      MulCancel(|Downmix(xs, w.channels)|, w.frameCount, w.channels);
    }
  }

  /** An 8-bit file (width 1) fails before conversion, and the message names width 1. */
  lemma EightBitRejected(w: WaveFile)
    requires w.sampleWidth == 1
    ensures ReadWave(w) == Err(UnsupportedWidth(1))
    ensures ErrorMessage(ReadWave(w).error) == "不支持的采样宽度: 1"
  {
  }
}

=== FILE: results.dfy ===
/** Result and option types shared by every stage of the relay. */
module Results {

  /** The value a stage produced, or the exception it raised. */
  datatype Result<+T, +E> = Ok(value: T) | Err(error: E)

  /** Python's `None` or a present value. */
  datatype Option<+T> = None | Some(value: T)
}

=== FILE: sherpa_session.dfy ===
/**
 * One WebSocket session with the recognition backend, as the ordered
 * events the relay causes: connect, the frame's chunks as binary
 * messages, one receive, the text message "Done", and the close that
 * leaving the connection's `async with` performs.  The network is an
 * oracle: a `Peer` says how the backend behaves.
 */
module SherpaSession {
  import opened Results
  import opened WireFrame
  import opened Chunking

  /** The text message that tells the backend the transfer is over. */
  const DoneToken: string := "Done"

  datatype Event =
    | Connect
    | SendBinary(data: seq<byte>)
    | Receive(text: string)
    | SendText(text: string)
    | Close

  /** How the backend behaves on one connection. */
  datatype Peer = Peer(
    reachable: bool,          // the connect handshake succeeds
    acceptLimit: Option<nat>, // the connection drops after this many binary messages
    reply: Option<string>,    // the one message it answers with; None: it closes without answering
    acceptsDone: bool,        // sending "Done" succeeds
    failure: string)          // `str(e)` of the exception a network failure raises

  /** What the relay did on the connection, and the reply or the exception's message. */
  datatype Session = Session(trace: seq<Event>, result: Result<string, string>)

  function Sends(cs: seq<seq<byte>>): (es: seq<Event>)
    ensures |es| == |cs|
    ensures forall i :: 0 <= i < |es| ==> es[i] == SendBinary(cs[i])
  {
    seq(|cs|, i requires 0 <= i < |cs| => SendBinary(cs[i]))
  }

  /** The bytes the backend received, in order. */
  function Payload(t: seq<Event>): seq<byte>
  {
    if |t| == 0 then [] else (if t[0].SendBinary? then t[0].data else []) + Payload(t[1..])
  }

  /** How many text messages the relay sent. */
  function TextSends(t: seq<Event>): nat
  {
    if |t| == 0 then 0 else (if t[0].SendText? then 1 else 0) + TextSends(t[1..])
  }

  /** The binary messages the relay sent, each as one message, in order. */
  function BinaryMessages(t: seq<Event>): seq<seq<byte>>
  {
    if |t| == 0 then [] else (if t[0].SendBinary? then [t[0].data] else []) + BinaryMessages(t[1..])
  }

  /** How many messages the relay received. */
  function Receives(t: seq<Event>): nat
  {
    if |t| == 0 then 0 else (if t[0].Receive? then 1 else 0) + Receives(t[1..])
  }

  /** Every binary send comes before every receive. */
  predicate SendsBeforeReceive(t: seq<Event>)
  {
    forall i, j :: 0 <= i < |t| && 0 <= j < |t| && t[i].SendBinary? && t[j].Receive? ==> i < j
  }

  /** The only text message is "Done", sent right after a receive. */
  predicate DoneFollowsReceive(t: seq<Event>)
  {
    forall j :: 0 <= j < |t| && t[j].SendText? ==> 0 < j && t[j - 1].Receive? && t[j].text == DoneToken
  }

  /** A connection that was opened is closed last, and nothing happens outside it. */
  predicate Bracketed(t: seq<Event>)
  {
    t == [] ||
    (&& |t| >= 2 && t[0] == Connect && t[|t| - 1] == Close
     && forall i :: 0 < i < |t| - 1 ==> !t[i].Connect? && !t[i].Close?)
  }

  lemma {:induction false} PayloadAppend(a: seq<Event>, b: seq<Event>)
    ensures Payload(a + b) == Payload(a) + Payload(b)
  {
    if |a| > 0 {
      PayloadAppend(a[1..], b);
      assert (a + b)[1..] == a[1..] + b;
    } else {
      assert a + b == b;
    }
  }

  lemma {:induction false} TextSendsAppend(a: seq<Event>, b: seq<Event>)
    ensures TextSends(a + b) == TextSends(a) + TextSends(b)
  {
    if |a| > 0 {
      TextSendsAppend(a[1..], b);
      assert (a + b)[1..] == a[1..] + b;
    } else {
      assert a + b == b;
    }
  }

  lemma {:induction false} ReceivesAppend(a: seq<Event>, b: seq<Event>)
    ensures Receives(a + b) == Receives(a) + Receives(b)
  {
    if |a| > 0 {
      ReceivesAppend(a[1..], b);
      assert (a + b)[1..] == a[1..] + b;
    } else {
      assert a + b == b;
    }
  }

  lemma {:induction false} BinaryMessagesAppend(a: seq<Event>, b: seq<Event>)
    ensures BinaryMessages(a + b) == BinaryMessages(a) + BinaryMessages(b)
  {
    if |a| > 0 {
      BinaryMessagesAppend(a[1..], b);
      assert (a + b)[1..] == a[1..] + b;
    } else {
      assert a + b == b;
    }
  }

  lemma {:induction false} PayloadSends(cs: seq<seq<byte>>)
    ensures Payload(Sends(cs)) == Concat(cs)
    ensures TextSends(Sends(cs)) == 0
    ensures Receives(Sends(cs)) == 0
    ensures BinaryMessages(Sends(cs)) == cs
  {
    if |cs| > 0 {
      PayloadSends(cs[1..]);
      assert Sends(cs)[1..] == Sends(cs[1..]);
    }
  }

  /** How an opened connection ended. */
  datatype Ending =
    | Dropped(error: string)   // a send failed, the reply never came, or the frame could not be built
    | Answered(reply: string)  // the reply came but sending "Done" failed
    | Finished(reply: string)  // the reply came and "Done" went out

  function Tail(e: Ending): (t: seq<Event>)
    ensures TextSends(t) == (if e.Finished? then 1 else 0)
    ensures Receives(t) == (if e.Dropped? then 0 else 1)
    ensures !e.Dropped? ==> Receive(e.reply) in t
    ensures Payload(t) == [] && BinaryMessages(t) == []
  {
    match e
    case Dropped(_) => []
    case Answered(r) => [Receive(r)]
    case Finished(r) =>
      var t := [Receive(r), SendText(DoneToken)];
      assert t[1..] == [SendText(DoneToken)] && t[1..][1..] == [];
      assert TextSends(t[1..]) == 1 && Payload(t[1..]) == [] && Receives(t[1..]) == 0 && BinaryMessages(t[1..]) == [];
      t
  }

  /** The events of a connection that opened, sent `sent`, and ended as `e`. */
  function Opened(sent: seq<seq<byte>>, e: Ending): seq<Event>
  {
    [Connect] + Sends(sent) + Tail(e) + [Close]
  }

  lemma OpenedCounts(sent: seq<seq<byte>>, e: Ending)
    ensures Payload(Opened(sent, e)) == Concat(sent)
    ensures TextSends(Opened(sent, e)) == (if e.Finished? then 1 else 0)
    ensures Receives(Opened(sent, e)) == (if e.Dropped? then 0 else 1)
    ensures !e.Dropped? ==> Receive(e.reply) in Opened(sent, e)
    ensures BinaryMessages(Opened(sent, e)) == sent
  {
    var a, b := [Connect] + Sends(sent), Tail(e) + [Close];
    assert Opened(sent, e) == a + b;
    PayloadSends(sent);
    PayloadAppend(a, b);
    PayloadAppend([Connect], Sends(sent));
    PayloadAppend(Tail(e), [Close]);
    TextSendsAppend(a, b);
    TextSendsAppend([Connect], Sends(sent));
    TextSendsAppend(Tail(e), [Close]);
    ReceivesAppend(a, b);
    ReceivesAppend([Connect], Sends(sent));
    ReceivesAppend(Tail(e), [Close]);
    BinaryMessagesAppend(a, b);
    BinaryMessagesAppend([Connect], Sends(sent));
    BinaryMessagesAppend(Tail(e), [Close]);
  }

  lemma OpenedOrder(sent: seq<seq<byte>>, e: Ending)
    ensures SendsBeforeReceive(Opened(sent, e))
    ensures DoneFollowsReceive(Opened(sent, e))
    ensures Bracketed(Opened(sent, e))
  {
    var t := Opened(sent, e);
    assert forall i :: 1 <= i <= |sent| ==> t[i] == SendBinary(sent[i - 1]);
    assert forall i :: 1 + |sent| <= i < |t| ==> !t[i].SendBinary?;
    assert forall j :: 0 <= j <= |sent| ==> !t[j].Receive?;
  }

  /** The whole frame goes out, then the reply comes in and "Done" goes out. */
  predicate Delivered(f: Frame, peer: Peer)
  {
    && peer.reachable
    && EncodeFrame(f).Ok?
    && (peer.acceptLimit.None? || |Split(EncodeFrame(f).value, PayloadLen)| <= peer.acceptLimit.value)
    && peer.reply.Some?
    && peer.acceptsDone
  }

  /**
   * How a session on an opened connection goes: the chunks that got out
   * before it ended, and how it ended.  Building the frame fails before
   * anything is sent; the peer may then drop the connection part way
   * through the chunks, close without answering, or refuse "Done".
   */
  function SessionCourse(f: Frame, peer: Peer): (c: (seq<seq<byte>>, Ending))
    requires peer.reachable
    ensures EncodeFrame(f).Err? ==> c == ([], Dropped(EncodeFrame(f).error))
    ensures EncodeFrame(f).Ok? ==> c.0 <= Split(EncodeFrame(f).value, PayloadLen)
    ensures c.1.Finished? <==> Delivered(f, peer)
    ensures c.1.Finished? ==> c.0 == Split(EncodeFrame(f).value, PayloadLen)
    ensures !c.1.Dropped? ==> peer.reply == Some(c.1.reply)
    ensures c.1.Dropped? && EncodeFrame(f).Ok? ==> c.1.error == peer.failure
  {
    match EncodeFrame(f)
    case Err(msg) => ([], Dropped(msg))
    case Ok(frame) =>
      var chunks := Split(frame, PayloadLen);
      if peer.acceptLimit.Some? && peer.acceptLimit.value < |chunks| then (chunks[..peer.acceptLimit.value], Dropped(peer.failure))
      else if peer.reply.None? then (chunks, Dropped(peer.failure))
      else if !peer.acceptsDone then (chunks, Answered(peer.reply.value))
      else (chunks, Finished(peer.reply.value))
  }

  /**
   * `send_to_sherpa`: connect, build the frame, send it in chunks, receive
   * one reply, send "Done", and return the reply as received.  Any
   * exception on the way, including a failed "Done", ends the session.
   */
  function Run(f: Frame, peer: Peer): (s: Session)
    ensures s.result.Ok? <==> Delivered(f, peer)
    ensures s.result.Ok? ==> s.result.value == peer.reply.value
    ensures !peer.reachable ==> s.trace == []
    ensures s.result.Err? && peer.reachable && EncodeFrame(f).Err? ==> s.result.error == EncodeFrame(f).error
    ensures s.result.Err? && (!peer.reachable || EncodeFrame(f).Ok?) ==> s.result.error == peer.failure
  {
    if !peer.reachable then Session([], Err(peer.failure))
    else
      var (sent, e) := SessionCourse(f, peer);
      var result := match e
        case Dropped(msg) => Err(msg)
        case Answered(_) => Err(peer.failure)
        case Finished(reply) => Ok(reply);
      Session(Opened(sent, e), result)
  }

  /** In every session the messages go in the protocol's order. */
  lemma SessionOrder(f: Frame, peer: Peer)
    ensures SendsBeforeReceive(Run(f, peer).trace)
    ensures DoneFollowsReceive(Run(f, peer).trace)
    ensures Bracketed(Run(f, peer).trace)
    ensures TextSends(Run(f, peer).trace) <= 1
    ensures Receives(Run(f, peer).trace) <= 1
  {
    if peer.reachable {
      var (sent, e) := SessionCourse(f, peer);
      OpenedOrder(sent, e);
      OpenedCounts(sent, e);
    }
  }

  /**
   * The binary messages are always leading pieces of the frame's split,
   * one message per piece.  A session that returns a reply sent every
   * piece, so it delivered the whole frame byte for byte; it also received exactly one message, the reply it returns, and sent
   * "Done" exactly once; a session that failed delivered a prefix of it.
   */
  lemma SessionPayload(f: Frame, peer: Peer)
    requires EncodeFrame(f).Ok?
    ensures Payload(Run(f, peer).trace) <= EncodeFrame(f).value
    ensures BinaryMessages(Run(f, peer).trace) <= Split(EncodeFrame(f).value, PayloadLen)
    ensures Run(f, peer).result.Ok? ==> BinaryMessages(Run(f, peer).trace) == Split(EncodeFrame(f).value, PayloadLen)
    ensures Run(f, peer).result.Ok? ==> Payload(Run(f, peer).trace) == EncodeFrame(f).value
    ensures Run(f, peer).result.Ok? ==> TextSends(Run(f, peer).trace) == 1
    ensures Run(f, peer).result.Ok? ==>
      Receives(Run(f, peer).trace) == 1 && Receive(Run(f, peer).result.value) in Run(f, peer).trace
  {
    if peer.reachable {
      var frame := EncodeFrame(f).value;
      var chunks := Split(frame, PayloadLen);
      var (sent, e) := SessionCourse(f, peer);
      OpenedCounts(sent, e);
      var k := |sent|;
      assert sent == chunks[..k];
      ConcatPrefix(chunks, k);
      SplitReassembles(frame, PayloadLen);
      assert chunks[..|chunks|] == chunks;
    }
  }
}

=== FILE: text.dfy ===
/** The string operations the relay relies on: `str.strip`, `str.lower` and decimal `str(int)`. */
module Text {

  /**
   * The characters `str.isspace` accepts, which are the characters a bare
   * `str.strip()` removes: ASCII tab to carriage return, the four ASCII
   * separators, space, and the Unicode line/paragraph and space separators.
   */
  predicate IsSpace(c: char)
    ensures c == ' ' || c == '\t' || c == '\n' || c == '\r' ==> IsSpace(c)
    ensures c < '\U{0080}' && IsSpace(c) ==> c <= ' '
    ensures ('0' <= c <= '9') || ('A' <= c <= 'Z') || ('a' <= c <= 'z') ==> !IsSpace(c)
  {
    || ('\U{0009}' <= c <= '\U{000D}')
    || ('\U{001C}' <= c <= '\U{0020}')
    || c == '\U{0085}' || c == '\U{00A0}' || c == '\U{1680}'
    || ('\U{2000}' <= c <= '\U{200A}')
    || c == '\U{2028}' || c == '\U{2029}' || c == '\U{202F}' || c == '\U{205F}' || c == '\U{3000}'
  }

  /** `r` is `s` with the whitespace runs `s[..i]` and `s[i + |r|..]` cut off. */
  predicate TrimmedAt(s: string, r: string, i: int)
  {
    && 0 <= i && i + |r| <= |s|
    && r == s[i..i + |r|]
    && (forall k :: 0 <= k < i ==> IsSpace(s[k]))
    && (forall k :: i + |r| <= k < |s| ==> IsSpace(s[k]))
  }

  /** `r` neither starts nor ends with whitespace. */
  predicate Tight(r: string)
  {
    |r| > 0 ==> !IsSpace(r[0]) && !IsSpace(r[|r| - 1])
  }

  function TrimStart(s: string): (r: string)
    ensures |r| <= |s|
    ensures TrimmedAt(s, r, |s| - |r|)
    ensures |r| > 0 ==> !IsSpace(r[0])
  {
    if |s| > 0 && IsSpace(s[0]) then TrimStart(s[1..]) else s
  }

  function TrimEnd(s: string): (r: string)
    ensures TrimmedAt(s, r, 0)
    ensures |r| > 0 ==> !IsSpace(r[|r| - 1])
  {
    if |s| > 0 && IsSpace(s[|s| - 1]) then TrimEnd(s[..|s| - 1]) else s
  }

  /** `str.strip()` with no argument. */
  function Strip(s: string): (r: string)
    ensures exists i :: TrimmedAt(s, r, i)
    ensures Tight(r)
  {
    var t := TrimStart(s);
    var r := TrimEnd(t);
    assert TrimmedAt(s, r, |s| - |t|);
    r
  }

  /** Only one tight infix of `s` is surrounded by whitespace: the stripped one. */
  lemma StripUnique(s: string, r: string, i: int)
    requires TrimmedAt(s, r, i) && Tight(r)
    ensures r == Strip(s)
  {
    var r' := Strip(s);
    var i' :| TrimmedAt(s, r', i');
    if |r| > 0 && |r'| > 0 {
      assert s[i] == r[0] && s[i'] == r'[0];
      assert i == i';
      assert s[i + |r| - 1] == r[|r| - 1] && s[i' + |r'| - 1] == r'[|r'| - 1];
      assert |r| == |r'|;
    }
  }

  /** Stripping twice is stripping once. */
  lemma StripIdempotent(s: string)
    ensures Strip(Strip(s)) == Strip(s)
  {
    var r := Strip(s);
    assert TrimmedAt(r, r, 0);
    StripUnique(r, r, 0);
  }

  /** `str.lower()` on one character, for the ASCII letters. */
  function LowerChar(c: char): (d: char)
  {
    if 'A' <= c <= 'Z' then (c as int + 32) as char else c
  }

  /** `str.lower()`, with the case mapping restricted to ASCII. */
  function Lower(s: string): (r: string)
    ensures |r| == |s|
    ensures forall k :: 0 <= k < |s| ==> r[k] == LowerChar(s[k])
  {
    seq(|s|, k requires 0 <= k < |s| => LowerChar(s[k]))
  }

  /** Lowering is idempotent and leaves no upper-case ASCII letter behind. */
  lemma LowerIdempotent(s: string)
    ensures Lower(Lower(s)) == Lower(s)
    ensures forall k :: 0 <= k < |s| ==> !('A' <= Lower(s)[k] <= 'Z')
  {
  }

  function DigitChar(d: nat): (c: char)
    requires d < 10
  {
    ['0', '1', '2', '3', '4', '5', '6', '7', '8', '9'][d]
  }

  function DigitValue(c: char): (d: nat)
    requires '0' <= c <= '9'
    ensures d < 10 && DigitChar(d) == c
  {
    c as int - '0' as int
  }

  /** `str(n)` for a non-negative integer: its decimal digits, without leading zeros. */
  function Decimal(n: nat): (r: string)
    ensures |r| > 0
    ensures forall k :: 0 <= k < |r| ==> '0' <= r[k] <= '9'
    ensures |r| > 1 ==> r[0] != '0'
    decreases n
  {
    if n < 10 then [DigitChar(n)] else Decimal(n / 10) + [DigitChar(n % 10)]
  }

  /** Reads a string of decimal digits back as a number. */
  function ParseDecimal(s: string): (n: nat)
    requires forall k :: 0 <= k < |s| ==> '0' <= s[k] <= '9'
  {
    if |s| == 0 then 0 else 10 * ParseDecimal(s[..|s| - 1]) + DigitValue(s[|s| - 1])
  }

  /** The decimal rendering names the number exactly. */
  lemma {:induction false} DecimalRoundTrip(n: nat)
    ensures ParseDecimal(Decimal(n)) == n
    decreases n
  {
    if n >= 10 {
      var d := Decimal(n);
      assert d[..|d| - 1] == Decimal(n / 10);
      DecimalRoundTrip(n / 10);
    }
  }

  /** Distinct numbers render differently. */
  lemma DecimalInjective(m: nat, n: nat)
    requires Decimal(m) == Decimal(n)
    ensures m == n
  {
    DecimalRoundTrip(m);
    DecimalRoundTrip(n);
  }
}

=== FILE: transcribe.dfy ===
/**
 * One request to the transcription endpoint as a state machine over
 * oracle outcomes: the three up-front checks, the two scratch files, the
 * copy-or-convert choice, decoding, the backend session, the response
 * body, and the `finally` clause that unlinks the scratch files.  As
 * written (`HandleAsWritten`), every exception inside the handler, its
 * own 400s included, leaves as status 500 with the detail "转录失败: "
 * followed by the exception's text; `Handle` lets the handler's own
 * HTTPExceptions through unchanged and is what the lemmas below use.
 */
module Transcribe {
  import opened Results
  import opened WireFrame
  import opened SherpaSession
  import Pcm
  import Paths
  import Ffmpeg
  import Envelope
  import Text
  import Chunking

  const FailurePrefix: string := "转录失败: "
  const ServerError: nat := 500

  /** The multipart form fields. */
  datatype Upload = Upload(filename: Option<string>, content: seq<byte>, opts: Envelope.Options)

  /** The host the handler runs on, as oracles. */
  datatype Host = Host(
    ffmpegInstalled: bool,                          // `shutil.which("ffmpeg")` found it
    inputStem: string,                              // the NamedTemporaryFile name before its suffix
    wavStem: string,                                // the mkstemp name before ".wav"
    convert: (seq<string>, seq<byte>) -> Option<seq<byte>>, // ffmpeg on the input bytes: the output bytes, or a failure
    openWave: seq<byte> -> Result<Pcm.WaveFile, string>,    // `wave.open` on the file's bytes
    encodeSample: real -> Word,                     // the float32 bytes of one sample
    peer: Peer,                                     // the recognition backend
    unlinkFails: set<string>)                       // paths whose `os.unlink` raises

  /** The exceptions the handler's `try` block can see. */
  datatype Failure =
    | NoFilename
    | NoFfmpeg
    | EmptyUpload
    | ConversionFailed
    | Raised(message: string)   // any other exception, by its `str(e)`

  /** The status code of each HTTPException the handler raises itself. */
  function HttpStatus(f: Failure): (status: nat)
    requires !f.Raised?
    ensures status == 400 || status == 500
    ensures status == 400 <==> f.NoFilename? || f.EmptyUpload?
  {
    match f
    case NoFilename => 400
    case NoFfmpeg => 500
    case EmptyUpload => 400
    case ConversionFailed => 500
  }

  /** The detail of each HTTPException the handler raises itself. */
  function HttpDetail(f: Failure): (detail: string)
    requires !f.Raised?
    ensures |detail| > 0
  {
    match f
    case NoFilename => "未提供文件名"
    case NoFfmpeg => "系统未安装 ffmpeg，无法处理音频格式转换"
    case EmptyUpload => "上传的文件为空"
    case ConversionFailed => "音频格式转换失败"
  }

  /** The four details are distinct, so the detail alone names the failure. */
  lemma HttpDetailInjective(f: Failure, g: Failure)
    requires !f.Raised? && !g.Raised? && HttpDetail(f) == HttpDetail(g)
    ensures f == g
  {
    assert |HttpDetail(f)| == |HttpDetail(g)|;
  }

  /** `str(e)`; an HTTPException renders as "<status>: <detail>". */
  function Describe(f: Failure): (d: string)
    ensures f.Raised? ==> d == f.message
    ensures !f.Raised? ==>
      && |d| > 5 && d[3..5] == ": " && d[5..] == HttpDetail(f)
      && (forall k :: 0 <= k < 3 ==> '0' <= d[k] <= '9')
      && Text.ParseDecimal(d[..3]) == HttpStatus(f)
  {
    if f.Raised? then f.message
    else
      var status := Text.Decimal(HttpStatus(f));
      StatusText();
      Text.DecimalRoundTrip(HttpStatus(f));
      var d := status + ": " + HttpDetail(f);
      assert d[..3] == status && d[5..] == HttpDetail(f);
      d
  }

  datatype Response = Transcript(body: Envelope.Body) | Error(status: nat, detail: string)

  /** What the request did and what it left behind. */
  datatype Outcome = Outcome(
    response: Response,
    created: seq<string>,             // scratch files, in creation order
    ffmpegArgv: Option<seq<string>>,  // the converter's command line, if it ran
    wavBytes: Option<seq<byte>>,      // what `read_wave` read, if it got that far
    trace: seq<Event>,                // the backend session
    removed: seq<string>,             // scratch files unlinked by `finally`
    leftover: seq<string>)            // scratch files whose unlink failed

  /** Python truthiness of the filename. */
  predicate HasFilename(u: Upload)
  {
    u.filename.Some? && u.filename.value != ""
  }

  /** The checks that run before any scratch file exists, in the handler's order. */
  function Precheck(u: Upload, h: Host): (r: Option<Failure>)
    ensures r == None <==> HasFilename(u) && h.ffmpegInstalled && |u.content| > 0
    ensures !HasFilename(u) ==> r == Some(NoFilename)
    ensures HasFilename(u) && !h.ffmpegInstalled ==> r == Some(NoFfmpeg)
    ensures HasFilename(u) && h.ffmpegInstalled && |u.content| == 0 ==> r == Some(EmptyUpload)
  {
    if !HasFilename(u) then Some(NoFilename)
    else if !h.ffmpegInstalled then Some(NoFfmpeg)
    else if |u.content| == 0 then Some(EmptyUpload)
    else None
  }

  /** The samples' bytes, one float32 word per sample. */
  function EncodeSamples(xs: seq<real>, enc: real -> Word): (ws: seq<Word>)
    ensures |ws| == |xs|
    ensures forall i :: 0 <= i < |xs| ==> ws[i] == enc(xs[i])
  {
    seq(|xs|, i requires 0 <= i < |xs| => enc(xs[i]))
  }

  /** What happened between the scratch files' creation and the end of the `try` block. */
  datatype Staged = Staged(
    result: Result<Envelope.Body, Failure>,
    ffmpegArgv: Option<seq<string>>,
    wavBytes: Option<seq<byte>>,
    trace: seq<Event>)

  /** The bytes in the WAV scratch file: the upload itself, or what the converter wrote. */
  function StageWav(content: seq<byte>, suffix: string, inPath: string, wavPath: string, h: Host)
    : (r: (Option<seq<string>>, Option<seq<byte>>))
    ensures r.0.Some? <==> suffix != Paths.WavSuffix
    ensures r.0.Some? ==> r.0.value == Ffmpeg.Argv(inPath, wavPath) && r.1 == h.convert(r.0.value, content)
    ensures r.0.None? ==> r.1 == Some(content)
  {
    if suffix != Paths.WavSuffix then
      var argv := Ffmpeg.Argv(inPath, wavPath);
      (Some(argv), h.convert(argv, content))
    else (None, Some(content))
  }

  /** Decode, send to the backend, shape the reply. */
  function Recognize(wav: seq<byte>, u: Upload, h: Host): (r: (Result<Envelope.Body, Failure>, seq<Event>))
    ensures r.0.Ok? ==> h.openWave(wav).Ok? && Pcm.ReadWave(h.openWave(wav).value).Ok?
    ensures r.0.Ok? ==>
      var audio := Pcm.ReadWave(h.openWave(wav).value).value;
      && h.peer.reply.Some?
      && Envelope.Shape(h.peer.reply.value, |audio.samples|, audio.rate, u.opts) == Ok(r.0.value)
  {
    match h.openWave(wav)
    case Err(m) => (Err(Raised(m)), [])
    case Ok(w) =>
      match Pcm.ReadWave(w)
      case Err(e) => (Err(Raised(Pcm.ErrorMessage(e))), [])
      case Ok(audio) =>
        var session := Run(Frame(audio.rate, EncodeSamples(audio.samples, h.encodeSample)), h.peer);
        match session.result
        case Err(m) => (Err(Raised(m)), session.trace)
        case Ok(reply) =>
          match Envelope.Shape(reply, |audio.samples|, audio.rate, u.opts)
          case Err(m) => (Err(Raised(m)), session.trace)
          case Ok(body) => (Ok(body), session.trace)
  }

  /** The `try` block after the scratch files exist. */
  function Process(u: Upload, h: Host, suffix: string, inPath: string, wavPath: string): (s: Staged)
    ensures s.ffmpegArgv.Some? <==> suffix != Paths.WavSuffix
    ensures s.wavBytes.Some? && s.ffmpegArgv.None? ==> s.wavBytes.value == u.content
    ensures s.wavBytes.None? ==> s.result == Err(ConversionFailed) && s.trace == []
  {
    var (argv, wav) := StageWav(u.content, suffix, inPath, wavPath, h);
    if wav.None? then Staged(Err(ConversionFailed), argv, None, [])
    else
      var (result, trace) := Recognize(wav.value, u, h);
      Staged(result, argv, wav, trace)
  }

  /**
   * The `finally` clause: for each path, in order, that was set and still
   * exists, try to unlink it; a failed unlink is only a warning.
   */
  function Cleanup(paths: seq<Option<string>>, existing: set<string>, failing: set<string>)
    : (r: (seq<string>, seq<string>))
    ensures forall p :: p in r.0 ==> p in existing && p !in failing && Some(p) in paths
    ensures forall p :: p in r.1 ==> p in existing && p in failing && Some(p) in paths
    ensures forall k :: 0 <= k < |paths| && paths[k].Some? && paths[k].value != "" && paths[k].value in existing ==>
      paths[k].value in r.0 || paths[k].value in r.1
  {
    if |paths| == 0 then ([], [])
    else
      var p := paths[0];
      if p.Some? && p.value != "" && p.value in existing then
        if p.value in failing then
          var (rm, left) := Cleanup(paths[1..], existing, failing);
          (rm, [p.value] + left)
        else
          var (rm, left) := Cleanup(paths[1..], existing - {p.value}, failing);
          ([p.value] + rm, left)
      else Cleanup(paths[1..], existing, failing)
  }

  /** What the `try` and `finally` blocks did: the `try` block's result and its side effects. */
  datatype Attempted = Attempted(
    result: Result<Envelope.Body, Failure>,
    created: seq<string>,
    ffmpegArgv: Option<seq<string>>,
    wavBytes: Option<seq<byte>>,
    trace: seq<Event>,
    removed: seq<string>,
    leftover: seq<string>)

  /** The handler's body up to the `except` clause, followed by `finally`. */
  function Attempt(u: Upload, h: Host): (a: Attempted)
    ensures Precheck(u, h).Some? ==> a.result == Err(Precheck(u, h).value)
    ensures Precheck(u, h).Some? ==> a.created == [] && a.ffmpegArgv.None? && a.trace == []
    ensures Precheck(u, h).None? ==> a.created == [h.inputStem + ScratchSuffix(u), h.wavStem + Paths.WavSuffix]
    ensures Precheck(u, h).None? ==> a.result.Ok? || a.result.error == ConversionFailed || a.result.error.Raised?
  {
    match Precheck(u, h)
    case Some(f) => Attempted(Err(f), [], None, None, [], [], [])
    case None =>
      var suffix := ScratchSuffix(u);
      var inPath := h.inputStem + suffix;
      var wavPath := h.wavStem + Paths.WavSuffix;
      var staged := Process(u, h, suffix, inPath, wavPath);
      var (removed, leftover) := Cleanup([Some(inPath), Some(wavPath)], {inPath, wavPath}, h.unlinkFails);
      Attempted(staged.result, [inPath, wavPath], staged.ffmpegArgv, staged.wavBytes, staged.trace, removed, leftover)
  }

  /** `except Exception` as written: every failure, the handler's own HTTPExceptions included, becomes a 500. */
  function RespondAsWritten(r: Result<Envelope.Body, Failure>): (resp: Response)
    ensures r.Ok? <==> resp.Transcript?
    ensures r.Ok? ==> resp.body == r.value
    ensures r.Err? ==> resp.status == ServerError && resp.detail == FailurePrefix + Describe(r.error)
  {
    match r
    case Ok(body) => Transcript(body)
    case Err(f) => Error(ServerError, FailurePrefix + Describe(f))
  }

  /** `transcribe_audio` as written. */
  function HandleAsWritten(u: Upload, h: Host): (o: Outcome)
    ensures o.response.Error? ==> o.response.status == ServerError && FailurePrefix <= o.response.detail
    ensures Precheck(u, h).Some? ==> o.created == [] && o.ffmpegArgv.None? && o.trace == []
    ensures Precheck(u, h).Some? ==> o.response == Error(ServerError, FailurePrefix + Describe(Precheck(u, h).value))
    ensures Precheck(u, h).None? ==> o.created == [h.inputStem + ScratchSuffix(u), h.wavStem + Paths.WavSuffix]
  {
    var a := Attempt(u, h);
    Outcome(RespondAsWritten(a.result), a.created, a.ffmpegArgv, a.wavBytes, a.trace, a.removed, a.leftover)
  }

  /** As written, a missing filename is answered with status 500, its 400 buried in the detail. */
  lemma ClientErrorReportedAs500(u: Upload, h: Host)
    requires !HasFilename(u)
    ensures HandleAsWritten(u, h).response == Error(500, "转录失败: 400: 未提供文件名")
  {
    StatusText();
  }

  /**
   * The evidently intended `except` clause: HTTPExceptions the handler
   * raised itself pass through with their own status and detail; every
   * other exception becomes a 500 with the "转录失败: " prefix.
   */
  function Respond(r: Result<Envelope.Body, Failure>): (resp: Response)
    ensures r.Ok? <==> resp.Transcript?
    ensures r.Ok? ==> resp.body == r.value
    ensures r.Err? && !r.error.Raised? ==> resp == Error(HttpStatus(r.error), HttpDetail(r.error))
    ensures r.Err? && r.error.Raised? ==> resp == Error(ServerError, FailurePrefix + r.error.message)
  {
    match r
    case Ok(body) => Transcript(body)
    case Err(f) => if f.Raised? then Error(ServerError, FailurePrefix + f.message) else Error(HttpStatus(f), HttpDetail(f))
  }

  /**
   * `transcribe_audio` with the intended `except` clause: client errors are
   * 400s, and everything else, the transcript and every side effect, is as
   * in `HandleAsWritten`.
   */
  function Handle(u: Upload, h: Host): (o: Outcome)
    ensures o.response.Error? && o.response.status == 400 <==>
      Precheck(u, h) == Some(NoFilename) || Precheck(u, h) == Some(EmptyUpload)
    ensures o.response.Error? ==> o.response.status == 400 || o.response.status == ServerError
    ensures Precheck(u, h).Some? ==> o.response == Error(HttpStatus(Precheck(u, h).value), HttpDetail(Precheck(u, h).value))
    ensures o.response.Transcript? <==> HandleAsWritten(u, h).response.Transcript?
    ensures o.response.Transcript? ==> o.response == HandleAsWritten(u, h).response
    ensures o.(response := HandleAsWritten(u, h).response) == HandleAsWritten(u, h)
    ensures Attempt(u, h).result.Err? && !Attempt(u, h).result.error.Raised? ==>
      o.response == Error(HttpStatus(Attempt(u, h).result.error), HttpDetail(Attempt(u, h).result.error))
    ensures Attempt(u, h).result.Err? && Attempt(u, h).result.error.Raised? ==>
      o.response == HandleAsWritten(u, h).response
  {
    var a := Attempt(u, h);
    Outcome(Respond(a.result), a.created, a.ffmpegArgv, a.wavBytes, a.trace, a.removed, a.leftover)
  }

  /** With the intended clause a missing filename is a 400 with the handler's own detail. */
  lemma ClientErrorReportedAs400(u: Upload, h: Host)
    requires !HasFilename(u)
    ensures Handle(u, h).response == Error(400, "未提供文件名")
  {
  }

  /** The suffix the upload's scratch file gets. */
  function ScratchSuffix(u: Upload): (s: string)
    requires HasFilename(u)
    ensures Paths.ExtensionShaped(s)
  {
    Paths.FileSuffix(u.filename.value)
  }

  /**
   * `finally` unlinks every scratch file it can; the ones left behind are
   * exactly those whose unlink failed.
   */
  lemma HandleCleansUp(u: Upload, h: Host)
    ensures var o := Handle(u, h);
      && (forall p :: p in o.removed ==> p in o.created && p !in h.unlinkFails)
      && (forall p :: p in o.leftover ==> p in o.created && p in h.unlinkFails)
      && (forall p :: p in o.created ==> p in o.removed || p in o.leftover)
  {
    if Precheck(u, h).None? {
      var inPath := h.inputStem + ScratchSuffix(u);
      var wavPath := h.wavStem + Paths.WavSuffix;
      var paths := [Some(inPath), Some(wavPath)];
      assert |inPath| > 0 && |wavPath| > 0;
      var (removed, leftover) := Cleanup(paths, {inPath, wavPath}, h.unlinkFails);
      assert paths[0].value == inPath && paths[1].value == wavPath;
      assert Handle(u, h) == Outcome(Respond(Attempt(u, h).result), [inPath, wavPath], Attempt(u, h).ffmpegArgv,
        Attempt(u, h).wavBytes, Attempt(u, h).trace, removed, leftover);
      assert Handle(u, h).removed == removed && Handle(u, h).leftover == leftover;
      assert Handle(u, h).created == [inPath, wavPath];
    }
  }

  /** A failed unlink is only a warning: the response, the converter call and the session do not depend on it. */
  lemma CleanupFailureKeepsOutcome(u: Upload, h: Host, failing: set<string>)
    ensures Handle(u, h.(unlinkFails := failing)).response == Handle(u, h).response
    ensures Handle(u, h.(unlinkFails := failing)).ffmpegArgv == Handle(u, h).ffmpegArgv
    ensures Handle(u, h.(unlinkFails := failing)).trace == Handle(u, h).trace
    ensures HandleAsWritten(u, h.(unlinkFails := failing)).response == HandleAsWritten(u, h).response
  {
    var h' := h.(unlinkFails := failing);
    if Precheck(u, h).None? {
      var suffix := ScratchSuffix(u);
      var inPath := h.inputStem + suffix;
      var wavPath := h.wavStem + Paths.WavSuffix;
      assert Process(u, h', suffix, inPath, wavPath) == Process(u, h, suffix, inPath, wavPath);
    }
  }

  /**
   * The converter runs exactly when the suffix is not ".wav", on the two
   * scratch files; otherwise the upload's bytes are read unchanged.
   */
  lemma ConvertUnlessWav(u: Upload, h: Host)
    requires Precheck(u, h).None?
    ensures var o := Handle(u, h);
      && (o.ffmpegArgv.Some? <==> ScratchSuffix(u) != Paths.WavSuffix)
      && (o.ffmpegArgv.Some? ==> o.ffmpegArgv.value == Ffmpeg.Argv(o.created[0], o.created[1]))
      && (o.ffmpegArgv.None? ==> o.wavBytes == Some(u.content))
  {
  }

  /**
   * A failed conversion answers 500 with the conversion detail, reaches
   * neither the decoder nor the backend, and deletes both scratch files.
   */
  lemma ConversionFailureCleansBoth(u: Upload, h: Host)
    requires Precheck(u, h).None? && ScratchSuffix(u) != Paths.WavSuffix
    requires h.convert(Ffmpeg.Argv(h.inputStem + ScratchSuffix(u), h.wavStem + Paths.WavSuffix), u.content).None?
    requires h.unlinkFails == {}
    ensures var o := Handle(u, h);
      && o.response == Error(ServerError, "音频格式转换失败")
      && o.wavBytes.None? && o.trace == []
      && |o.created| == 2 && o.removed == o.created && o.leftover == []
    ensures HandleAsWritten(u, h).response == Error(500, "转录失败: 500: 音频格式转换失败")
    ensures HandleAsWritten(u, h).response != Handle(u, h).response
  {
    var inPath := h.inputStem + ScratchSuffix(u);
    var wavPath := h.wavStem + Paths.WavSuffix;
    ScratchPathsDistinct(h.inputStem, ScratchSuffix(u), h.wavStem);
    CleanupRemovesBoth(inPath, wavPath);
    assert Attempt(u, h).result == Err(ConversionFailed);
    ConversionFailureResponses();
  }

  /** The two handlers' answers to a failed conversion. */
  lemma ConversionFailureResponses()
    ensures Respond(Err(ConversionFailed)) == Error(ServerError, "音频格式转换失败")
    ensures RespondAsWritten(Err(ConversionFailed)) == Error(500, "转录失败: 500: 音频格式转换失败")
  {
    StatusText();
  }

  /** With no failing unlink, `finally` removes two distinct existing scratch files, in order. */
  lemma CleanupRemovesBoth(inPath: string, wavPath: string)
    requires inPath != "" && wavPath != "" && inPath != wavPath
    ensures Cleanup([Some(inPath), Some(wavPath)], {inPath, wavPath}, {}) == ([inPath, wavPath], [])
  {
    var paths := [Some(inPath), Some(wavPath)];
    var none: set<string> := {};
    assert paths[1..] == [Some(wavPath)] && paths[1..][1..] == [];
    assert {inPath, wavPath} - {inPath} == {wavPath};
    var last := Cleanup(paths[1..][1..], {wavPath} - {wavPath}, none);
    assert last == ([], []);
    assert Cleanup(paths[1..], {wavPath}, none) == ([wavPath] + last.0, last.1);
    assert [wavPath] + last.0 == [wavPath];
    var second := Cleanup(paths[1..], {wavPath}, none);
    assert Cleanup(paths, {inPath, wavPath}, none) == ([inPath] + second.0, second.1);
    assert [inPath] + [wavPath] == [inPath, wavPath];
  }

  /** The decimal renderings of the two status codes the handler raises. */
  lemma StatusText()
    ensures Text.Decimal(400) == "400" && Text.Decimal(500) == "500"
  {
    assert Text.Decimal(40) == "40" && Text.Decimal(50) == "50";
  }

  /** The upload's scratch file and the WAV scratch file differ whenever the suffix is not ".wav". */
  lemma ScratchPathsDistinct(inputStem: string, suffix: string, wavStem: string)
    requires Paths.ExtensionShaped(suffix) && suffix != Paths.WavSuffix
    ensures inputStem + suffix != wavStem + Paths.WavSuffix
  {
    var a, b := inputStem + suffix, wavStem + Paths.WavSuffix;
    var n, m := |a|, |suffix|;
    if |a| == |b| {
      if m < 4 {
        assert a[n - m] == '.' && b[n - m] != '.';
      } else if m == 4 {
        var k :| 0 <= k < 4 && suffix[k] != Paths.WavSuffix[k];
        assert a[n - 4 + k] != b[n - 4 + k];
      } else {
        assert a[n - 4] == suffix[m - 4] && a[n - 4] != '.' && b[n - 4] == '.';
      }
    }
  }

  /** An upload whose WAV header declares a sample width other than 2 fails with a detail that names that width. */
  lemma UnsupportedWidthDetail(u: Upload, h: Host, w: Pcm.WaveFile)
    requires Precheck(u, h).None? && ScratchSuffix(u) == Paths.WavSuffix
    requires h.openWave(u.content) == Ok(w) && w.sampleWidth != 2
    ensures Handle(u, h).response == Error(ServerError, FailurePrefix + "不支持的采样宽度: " + Text.Decimal(w.sampleWidth))
    ensures Handle(u, h).trace == []
    ensures HandleAsWritten(u, h).response == Handle(u, h).response
  {
    assert Attempt(u, h).result == Err(Raised(Pcm.ErrorMessage(Pcm.UnsupportedWidth(w.sampleWidth))));
  }

  /**
   * A transcript means the backend got the whole frame built from the
   * decoded audio, replied once, and then received "Done" exactly once.
   */
  lemma SuccessDeliveredFrame(u: Upload, h: Host)
    requires Handle(u, h).response.Transcript?
    ensures var o := Handle(u, h);
      && o.wavBytes.Some?
      && h.openWave(o.wavBytes.value).Ok?
      && Pcm.ReadWave(h.openWave(o.wavBytes.value).value).Ok?
      && var audio := Pcm.ReadWave(h.openWave(o.wavBytes.value).value).value;
      && var f := Frame(audio.rate, EncodeSamples(audio.samples, h.encodeSample));
      && EncodeFrame(f).Ok?
      && o.trace == Run(f, h.peer).trace
      && Payload(o.trace) == EncodeFrame(f).value
      && Chunking.Split(EncodeFrame(f).value, Chunking.PayloadLen) == BinaryMessages(o.trace)
      && TextSends(o.trace) == 1
      && Receives(o.trace) == 1 && Receive(Run(f, h.peer).result.value) in o.trace
      && SendsBeforeReceive(o.trace) && DoneFollowsReceive(o.trace)
  {
    var o := Handle(u, h);
    var w := h.openWave(o.wavBytes.value).value;
    var audio := Pcm.ReadWave(w).value;
    var f := Frame(audio.rate, EncodeSamples(audio.samples, h.encodeSample));
    SessionPayload(f, h.peer);
    SessionOrder(f, h.peer);
  }

  /**
   * The transcript is the backend's reply, shaped for the decoded audio:
   * its text is the reply stripped of surrounding whitespace.
   */
  lemma SuccessTranscript(u: Upload, h: Host)
    requires Handle(u, h).response.Transcript?
    ensures h.peer.reply.Some?
    ensures var o := Handle(u, h);
      && o.wavBytes.Some?
      && h.openWave(o.wavBytes.value).Ok?
      && Pcm.ReadWave(h.openWave(o.wavBytes.value).value).Ok?
      && var audio := Pcm.ReadWave(h.openWave(o.wavBytes.value).value).value;
      && Envelope.Shape(h.peer.reply.value, |audio.samples|, audio.rate, u.opts) == Ok(o.response.body)
    ensures Handle(u, h).response.body.text == Text.Strip(h.peer.reply.value)
  {
    SuccessDeliveredFrame(u, h);
  }
}

=== FILE: wire_frame.dfy ===
/**
 * The binary frame handed to the recognition backend: a little-endian
 * 32-bit sample rate, a little-endian 32-bit payload length (4 bytes per
 * sample), then the samples' bytes.  Each sample is an opaque 4-byte word;
 * the IEEE-754 encoding of the float32 value is not modelled.
 */
module WireFrame {
  import opened Results

  newtype byte = x: int | 0 <= x < 256

  /** The 4 bytes of one float32 sample, as `ndarray.tobytes` lays them out. */
  type Word = w: seq<byte> | |w| == 4 witness [0, 0, 0, 0]

  const Two32: nat := 0x1_0000_0000

  /** `int.to_bytes(4, "little")` raises OverflowError with this message. */
  const TooBigMessage: string := "int too big to convert"

  /** The logical content of a frame. */
  datatype Frame = Frame(rate: nat, samples: seq<Word>)

  /** Reads an unsigned little-endian 32-bit integer. */
  function ReadLE32(b: seq<byte>): (n: nat)
    requires |b| == 4
    ensures n < Two32
  {
    b[0] as nat + 256 * (b[1] as nat + 256 * (b[2] as nat + 256 * b[3] as nat))
  }

  /** `n.to_bytes(4, "little")` for a value that fits. */
  function LE32(n: nat): (r: seq<byte>)
    requires n < Two32
    ensures |r| == 4
    ensures ReadLE32(r) == n
  {
    var q0 := n / 256;
    var q1 := q0 / 256;
    var q2 := q1 / 256;
    [(n % 256) as byte, (q0 % 256) as byte, (q1 % 256) as byte, q2 as byte]
  }

  lemma DivMod256(lo: nat, hi: nat)
    requires lo < 256
    ensures (lo + 256 * hi) % 256 == lo
    ensures (lo + 256 * hi) / 256 == hi
  {
  }

  /** Every 4-byte sequence is the encoding of the value it reads as. */
  lemma LE32OfRead(b: seq<byte>)
    requires |b| == 4
    ensures LE32(ReadLE32(b)) == b
  {
    var h2 := b[2] as nat + 256 * b[3] as nat;
    var h1 := b[1] as nat + 256 * h2;
    DivMod256(b[0] as nat, h1);
    DivMod256(b[1] as nat, h2);
    DivMod256(b[2] as nat, b[3] as nat);
  }

  /** The samples' bytes in order, as `ndarray.tobytes` produces them. */
  function Flatten(ws: seq<Word>): (r: seq<byte>)
    ensures |r| == 4 * |ws|
    ensures forall i, k :: 0 <= i < |ws| && 0 <= k < 4 ==> r[4 * i + k] == ws[i][k]
  {
    if |ws| == 0 then [] else
      var rest := Flatten(ws[1..]);
      assert forall i, k :: 1 <= i < |ws| && 0 <= k < 4 ==> rest[4 * (i - 1) + k] == ws[i][k];
      ws[0] + rest
  }

  /** Groups a byte string into 4-byte words. */
  function Unflatten(b: seq<byte>): (ws: seq<Word>)
    requires |b| % 4 == 0
    ensures 4 * |ws| == |b|
  {
    if |b| == 0 then [] else [b[..4]] + Unflatten(b[4..])
  }

  lemma {:induction false} UnflattenFlatten(ws: seq<Word>)
    ensures Unflatten(Flatten(ws)) == ws
  {
    if |ws| > 0 {
      var f := Flatten(ws);
      assert f[..4] == ws[0];
      assert f[4..] == Flatten(ws[1..]);
      UnflattenFlatten(ws[1..]);
    }
  }

  lemma {:induction false} FlattenUnflatten(b: seq<byte>)
    requires |b| % 4 == 0
    ensures Flatten(Unflatten(b)) == b
  {
    if |b| > 0 {
      FlattenUnflatten(b[4..]);
      assert b == b[..4] + b[4..];
    }
  }

  /**
   * Builds the frame, or fails the way `to_bytes(4, "little")` does when the
   * rate or the payload length does not fit in 32 bits.
   */
  function EncodeFrame(f: Frame): (r: Result<seq<byte>, string>)
    ensures r.Ok? <==> f.rate < Two32 && 4 * |f.samples| < Two32
    ensures r.Ok? ==> |r.value| == 8 + 4 * |f.samples|
    ensures r.Err? ==> r.error == TooBigMessage
  {
    if f.rate >= Two32 || 4 * |f.samples| >= Two32 then Err(TooBigMessage)
    else Ok(LE32(f.rate) + LE32(4 * |f.samples|) + Flatten(f.samples))
  }

  /** What a receiver reading the whole frame recovers from it. */
  function DecodeFrame(b: seq<byte>): (r: Option<Frame>)
    ensures r.Some? ==> |b| == 8 + 4 * |r.value.samples|
  {
    if |b| < 8 then None
    else
      var len := ReadLE32(b[4..8]);
      if len != |b| - 8 || len % 4 != 0 then None
      else Some(Frame(ReadLE32(b[..4]), Unflatten(b[8..])))
  }

  /** Decoding an encoded frame returns the rate, the length field's samples, and nothing else. */
  lemma FrameRoundTrip(f: Frame)
    requires EncodeFrame(f).Ok?
    ensures DecodeFrame(EncodeFrame(f).value) == Some(f)
  {
    var b := EncodeFrame(f).value;
    assert b[..4] == LE32(f.rate);
    assert b[4..8] == LE32(4 * |f.samples|);
    assert b[8..] == Flatten(f.samples);
    UnflattenFlatten(f.samples);
  }

  /** Every byte string the decoder accepts is the encoding of what it decodes to. */
  lemma FrameRoundTripBytes(b: seq<byte>)
    requires DecodeFrame(b).Some?
    ensures EncodeFrame(DecodeFrame(b).value) == Ok(b)
  {
    var f := DecodeFrame(b).value;
    LE32OfRead(b[..4]);
    LE32OfRead(b[4..8]);
    FlattenUnflatten(b[8..]);
    assert b == b[..4] + b[4..8] + b[8..];
  }

  /** The first 8 bytes carry the rate and `4*N`, whatever the samples are. */
  lemma FrameHeader(f: Frame)
    requires EncodeFrame(f).Ok?
    ensures ReadLE32(EncodeFrame(f).value[..4]) == f.rate
    ensures ReadLE32(EncodeFrame(f).value[4..8]) == 4 * |f.samples|
  {
    var b := EncodeFrame(f).value;
    assert b[..4] == LE32(f.rate);
    assert b[4..8] == LE32(4 * |f.samples|);
  }
}
